=== FILE: README.md ===
# paktool `list`: embedded-archive expansion and the tree view

This project models two list- and string-level algorithms of the `list`
command of `imageBuild/paktool.py`, the command-line front end of the pak
archive tool:

- **Expansion of embedded archives** (`list --expand`). An archive is an
  ordered list of entries, each a file or an alignment pad, that carry their
  decompressed bytes.
  - The loop repeatedly finds the entries whose name matches `*.pak`. It
    decodes each one's bytes as an archive of its own.
  - It inserts the decoded entries, renamed `parent>/name`, where the
    embedding entry stands, then removes the embedding entry.
  - The `*.pak` entries of a pass are found once, before anything changes.
    An archive nested two levels deep is therefore expanded in the next pass.
  - The loop ends when the search finds nothing.
- **The tree view**. Entry names are split at `/` and threaded into a trie of
  ordered branches. A branch is a Python dict, so its keys keep insertion
  order. Directory components key sub-branches, and entries key the flag
  `True`.
  - The trie is drawn in the style of the `tree` command. Each key gets a
    line made of the inherited prefix, the `|-- ` or `` `-- `` connector and
    a label. The label is the component for a directory, the base name for a
    file and `|<pad>|` for a pad.
  - The archive's base name is printed first when it is non-empty.

Modules:

- `PakEntry` (`pak_entry.dfy`): entries, the `*.pak` filter and renaming.
- `Expand` (`expand.dfy`): the search, one splice, one pass and the loop.
  - `FindPaks` is the search, proved to return exactly the `*.pak`
    positions in order.
  - `InsertRenamed` (the insert loop of line 129) and `ExpandOne` are proved
    equal to a splice: the renamed contents in place of the embedding entry.
  - `ExpandPass`, the loop over the search result, is proved equal to the
    per-entry reference pass `Pass`.
  - `ExpandAll`, the `while True` loop, is proved equal to `Flatten`, the
    same loop written as a recursion over the remaining fuel.
- `Names` (`names.dfy`): `str.split('/')`, its inverse join, and
  `os.path.basename`.
- `NameTree` (`tree.dfy`): building the trie.
- `Render` (`render.dfy`): `print_tree` as a pure function returning the
  printed lines. An independent depth-first outline of the trie is its
  partner.
- `Listing` (`listing.dfy`): the two halves composed as `cmd_list` composes
  them.

Modelling decisions:

- **Decoding.** Decoding an embedded archive (`pak.Archive().load(image=…)`)
  belongs to the archive engine, which is not part of this model. It is a
  function-valued parameter `decode: seq<bv8> -> Decoded`. Its outcome is
  either `Loaded(entries)` or `Corrupt`. `Corrupt` stands for `load` raising
  on an image that is not a valid archive. The listing reports it as
  `CorruptArchive`, and it propagates out of the listing because no handler
  surrounds it.
- **The `*.pak` filter** is modelled as "the name ends in `.pak`". The glob
  `*` also matches `/`.
- **Identity.** `result.index`, `result.insert` and `result.remove` are
  methods of `pak.Archive`, which is not part of this model. They are taken
  to act like the list operations of the same names on the archive's entry
  list, finding an entry by identity. Dict keys in the trie compare entries
  by identity too. This assumes `ArchiveEntry` does not override `__eq__`;
  the class is not part of this model.
  - The expansion loop carries a parallel sequence of identities. Loaded
    entries are identified by their original position and decoded entries by
    -1, an identity the loop never looks up.
  - In the trie, an entry's key is its position in the listed entry list.
- **Component comparison at line 157.** Each component is compared *by value*
  with the final component. The model keeps this behaviour as written.
  - Every component equal to the final one keys the entry in the current
    branch without descending.
  - So `a/a` gives a single leaf at the root, and `x/y/x` gives a leaf at the
    root and another under `y`.
  - `NameTree.PlaceLeafAt` states the general rule, and
    `NameTree.PlaceLeafOnlyAt` its converse: the entry is keyed nowhere else.
- **The loop has no bound in the source.** A decoded archive may itself
  contain `*.pak` entries, so termination is not provable. The model runs at
  most `fuel` passes and reports `OutOfFuel` when they are used up. No
  decoder can produce `OutOfFuel`, so it is a model-only outcome.
  - When embedded archives nest at most `d` levels deep, every pass removes
    one level, so `d` passes flatten the list (`Expand.FlattenWithin`).
    With fuel of at least `d` the bound is never reached.

## Model

| member | source | states |
|---|---|---|
| PakEntry.EmbeddedNameKeepsPak | imageBuild/paktool.py:127 | the renamed `parent>/name` matches `*.pak` exactly when `name` does, so a nested archive stays visible to the next search |
| PakEntry.RenamedKeepsPaks | imageBuild/paktool.py:125-127 | renaming a whole decoded archive keeps each of its members' `*.pak` status |
| PakEntry.IsPakName | imageBuild/paktool.py:112 | an entry is an embedded archive exactly when its name ends in `.pak`; the glob's `*` also matches `/` |
| PakEntry.Renamed | imageBuild/paktool.py:125-127 | the decoded entries in their archive order, each keeping its kind and data, with a name under `parent>/` from which its own name is recovered |
| PakEntry.EmbeddedNameRoundTrip | imageBuild/paktool.py:127 | stripping `parent>/` from a renamed name gives the nested entry's own name back |
| Expand.PakIndicesBelow | imageBuild/paktool.py:112 | the search result holds only `*.pak` positions, strictly ascending, so in list order |
| Expand.PakIndicesBelowComplete | imageBuild/paktool.py:112 | no `*.pak` entry is missed by the search |
| Expand.FindPaks | imageBuild/paktool.py:110-116 | the search fails with "no match" exactly when no entry matches `*.pak`, and otherwise returns every matching entry in order |
| Expand.InsertBeforeTarget | imageBuild/paktool.py:129 | with some renamed entries already inserted before the embedding entry, looking the embedding entry up again and inserting the next one there places it right after them, before the embedding entry |
| Expand.InsertRenamed | imageBuild/paktool.py:125-129 | inserting each decoded entry at the current index of the embedding entry puts all of them, renamed and in their own order, directly before it |
| Expand.ExpandOne | imageBuild/paktool.py:122-131 | one expansion replaces the embedding entry by its renamed contents at the index it occupied; the entries before and after are unchanged; the length becomes old - 1 + the number of decoded entries |
| Expand.ExpandEntry | imageBuild/paktool.py:119-131 | what one entry becomes in a pass: the renamed contents of its image when its name matches `*.pak`, the archive error when that image does not load, and the entry itself otherwise |
| Expand.Pass | imageBuild/paktool.py:115-131 | the reference pass: every entry replaced by what it becomes, in list order; it can fail only with the archive error |
| Expand.IndexOf | imageBuild/paktool.py:129 | `result.index(embedFile)`: the first position holding the embedding entry's identity |
| Expand.PassPrefix | imageBuild/paktool.py:115-131 | a pass never revises what it has produced for earlier entries; the output for a prefix of the list is a prefix of the output for the whole list |
| Expand.PassFailureIsCorrupt | imageBuild/paktool.py:119-124 | a pass fails exactly when some `*.pak` entry's image does not load, and then with the archive error |
| Expand.PassPlain | imageBuild/paktool.py:119-131 | entries not matched by `*.pak` go through a pass unchanged and in place |
| Expand.PassNoPaks | imageBuild/paktool.py:119-131 | a pass over a list without `*.pak` entries returns it unchanged |
| Expand.ExpandSnapshotEntry | imageBuild/paktool.py:119-131 | expanding one entry of the search result advances the pass state; a decoding failure is the failure of the whole pass |
| Expand.PassStart | imageBuild/paktool.py:112-119 | before the first embedded archive of the search result is handled, the list is the loaded one and every entry is still itself |
| Expand.PassComplete | imageBuild/paktool.py:119-131 | once every entry of the search result has been expanded, the list is the complete pass: the entries after the last one found are plain and stay as they are |
| Expand.ExpandPass | imageBuild/paktool.py:112-131 | the loop over the search result, taken once before any change, computes the reference pass: every entry replaced by what it becomes, in order, the first decoding failure aborting |
| Expand.NestedPakDeferred | imageBuild/paktool.py:112-131 | in any list, an archive nested inside an embedded archive is not expanded in the same pass: after a successful pass it is present, renamed and still matching `*.pak`, so the next search finds something |
| Expand.Flatten | imageBuild/paktool.py:110-131 | when the loop ends normally no entry matches `*.pak`; a list without `*.pak` entries is left as it is |
| Expand.FlattenFailure | imageBuild/paktool.py:110-131 | the expansion fails only because an image does not load or the fuel bound ran out; `find` matching nothing is the loop's normal exit and never an error |
| Expand.FlattenFuelMonotone | imageBuild/paktool.py:110-131 | the outcome does not depend on the fuel bound once the loop finishes within it |
| Expand.PassLowersNesting | imageBuild/paktool.py:112-131 | over a list whose embedded archives nest `d > 0` levels deep, a pass succeeds and leaves a list nested at most `d - 1` levels deep |
| Expand.FlattenWithin | imageBuild/paktool.py:110-131 | archives nested at most `d` levels deep are flattened within `d` passes: with fuel of at least `d` the loop ends normally |
| Expand.ExpandAll | imageBuild/paktool.py:108-131 | the `while True` loop, which ends only when the search finds nothing, computes the reference expansion and leaves no `*.pak` entry |
| Names.Split | imageBuild/paktool.py:155 | `name.split('/')` gives at least one component, none containing `/`, and joining them with `/` gives the name back |
| Names.SplitJoin | imageBuild/paktool.py:155 | splitting the join of slash-free components gives the components back |
| Names.SplitPair | imageBuild/paktool.py:155 | `dir/name` with slash-free parts splits into exactly `[dir, name]` |
| Names.Basename | imageBuild/paktool.py:283 | the base name is a slash-free suffix of the name that is either all of it or follows a `/` |
| Names.BasenameIsLastComponent | imageBuild/paktool.py:283 | the file label, `os.path.basename(name)`, is the last component of `name.split('/')` |
| NameTree.FindDir | imageBuild/paktool.py:164-167 | a directory component is found in a branch exactly when the branch has that key |
| NameTree.Place | imageBuild/paktool.py:155-167 | threading one entry into a branch: a component equal to the final one keys the entry in the current branch, any other descends into its sub-branch, created at the end of the branch when missing |
| NameTree.BuildBelow | imageBuild/paktool.py:150-167 | the trie of the first `n` entries, threaded in list order from the empty root |
| NameTree.Build | imageBuild/paktool.py:147-167 | the trie of the whole entry list has unique keys at every level, keys every listed entry and nothing else somewhere in it, and each of its leaves holds the listed entry at its position |
| NameTree.PlaceLeafEntries | imageBuild/paktool.py:155-167 | threading a listed entry keeps every leaf holding the entry at its position: line 160 stores the entry itself |
| NameTree.BuildLeafEntries | imageBuild/paktool.py:147-167 | every leaf of the built trie, at any depth, holds the listed entry at its position |
| NameTree.PutLeafKeys | imageBuild/paktool.py:160 | keying an entry keeps the existing keys in place and leaves the entry keyed |
| NameTree.PlaceLeaves | imageBuild/paktool.py:155-167 | threading one entry into the trie adds exactly that entry to its leaves |
| NameTree.BuildLeaves | imageBuild/paktool.py:147-167 | every listed entry appears as a leaf of the tree, and nothing else does |
| NameTree.PlaceKeepsKeys | imageBuild/paktool.py:161-167 | keys are only ever appended and never reordered, so entries sharing a directory reuse the branch created for the first of them |
| NameTree.PlaceWellFormed | imageBuild/paktool.py:155-167 | threading an entry keeps every branch free of duplicate keys |
| NameTree.BuildWellFormed | imageBuild/paktool.py:147-167 | the whole tree has unique keys at every level |
| NameTree.PlaceKeepsLeafAt | imageBuild/paktool.py:150-167 | threading a later entry never loses an earlier leaf |
| NameTree.PlaceLeafAt | imageBuild/paktool.py:156-167 | for every component equal to the final one, the entry is keyed in the branch reached through the earlier components that differ from the final one |
| NameTree.PlaceLeafOnlyAt | imageBuild/paktool.py:155-167 | the converse of the line-157 rule: threading an entry keys no other entry, and keys it only in branches reached through the differing components before an occurrence of its final component |
| NameTree.PlaceDirsOnPath | imageBuild/paktool.py:161-167 | threading an entry creates directories only along the components it descends through |
| NameTree.BuildLeafOnlyAt | imageBuild/paktool.py:147-167 | in the built trie every keyed entry is a listed one, keyed only where line 157 puts it |
| NameTree.BuildLeafAt | imageBuild/paktool.py:147-167 | the converse of `BuildLeafOnlyAt`: every listed entry is keyed in the built trie in every branch where line 157 puts it |
| NameTree.BuildDirsOnPath | imageBuild/paktool.py:147-167 | every directory of the built trie lies on the components some listed entry descends through |
| NameTree.PlaceAtPath | imageBuild/paktool.py:155-167 | a name whose final component occurs only at its end is keyed in the branch of its directory components |
| NameTree.RepeatedFinalComponent | imageBuild/paktool.py:155-160 | `a/a` gives a single leaf at the root and no directory `a` |
| NameTree.FinalComponentReappears | imageBuild/paktool.py:155-167 | `x/y/x` gives a leaf at the root and another under `y` |
| NameTree.SharedDirectory | imageBuild/paktool.py:150-167 | `d/p` then `d/q` give one branch `d` holding both entries in list order |
| Render.Label | imageBuild/paktool.py:277-285 | the text of a key: the component for a directory, the base name for a file entry, the pad marker for a pad |
| Render.RenderFrom | imageBuild/paktool.py:264-295 | the lines of the keys of a branch from a position on, in key order |
| Render.KeyLines | imageBuild/paktool.py:266-295 | one key's line, prefix then connector then label, followed by its sub-branch's lines when it is a directory |
| Render.ListTree | imageBuild/paktool.py:147-170 | the tree view of an entry list is the archive's base name, when non-empty, followed by one line per key of the trie as in the outline |
| Render.PrintTree | imageBuild/paktool.py:258-259 | a non-empty root name is printed as the first line |
| Render.RenderShowsOutline | imageBuild/paktool.py:264-295 | one line per key of the trie, depth first in key order: each starts with the caller's prefix and then has four columns per level, a connector and the key's label |
| Render.PrintTreeShowsOutline | imageBuild/paktool.py:251-295 | the listing is the root line, when the root name is non-empty, followed by one line per key of the trie as in the outline |
| Render.LastKeyIsLastPosition | imageBuild/paktool.py:264-270 | with unique keys, `keys[-1] == key` holds exactly for the last position |
| Render.KeyAt | imageBuild/paktool.py:264-295 | the lines of a key and of its sub-branch come right after those of the keys before it and their sub-branches |
| Render.KeyLinesShape | imageBuild/paktool.py:268-295 | a key's line has the elbow connector exactly at the last key; only a directory is followed by its sub-branch, drawn with four blanks added to the prefix after the last key and a rail otherwise |
| Render.LeafRowShown | imageBuild/paktool.py:264-285 | in a trie whose leaves hold their listed entries, an entry keyed through `path` has an outline row one level deeper per component of `path`, showing that entry's label |
| Render.BuildShowsEntry | imageBuild/paktool.py:147-170 | every listed entry has an outline row of the built trie, showing its base name or the pad marker, at the depth of each branch line 157 keys it in |
| Render.BuildShowsEveryEntry | imageBuild/paktool.py:147-170 | every listed entry has a row showing its label at the depth of the branch of its final component |
| Render.ListingExample | imageBuild/paktool.py:147-170 | the archive `img/x.pak` holding a file `d/p` and a pad `d/q` is listed as four lines: the root `x.pak`, the directory `d` with the elbow, then, indented four columns, `p` with the tee and the pad marker with the elbow |
| Listing.ListCommand | imageBuild/paktool.py:108-170 | the `list` command without name filters cannot fail without `--expand`; with it, it fails only on an embedded image that does not load or when the fuel bound runs out |
| Listing.ListCommandShowsFlatList | imageBuild/paktool.py:108-170 | with expansion, the listing fails exactly when the expansion fails; otherwise every expanded entry, none of them a `*.pak`, is a leaf holding that entry and has a line showing its label, with one line per key after the archive name |
| Listing.ListCommandUnexpanded | imageBuild/paktool.py:108-170 | without expansion, the listing cannot fail; every entry of the archive is a leaf holding that entry and has a line showing its label, with one line per key after the archive name |
| Listing.ListCommandNestedWithin | imageBuild/paktool.py:108-131 | when embedded archives nest no deeper than the fuel bound, the expanded listing succeeds and no `*.pak` entry remains |

## Left out

- The archive engine (`pak.Archive`: `load`, `find`, `insert`, `index`, `remove`, `build`, record format, compression) is not part of this model. Decoding is a parameter, and `find("*.pak")` is the name-suffix filter.
- `Archive.index`, `Archive.insert` and `Archive.remove` are assumed to act like `list.index`, `list.insert` and `list.remove` on the entry list, comparing entries by identity. The model rests on that assumption and does not check it.
- `find("*.pak")` at line 112 is assumed to return the matching entry objects themselves, in list order, as a list built once. If it returned copies, `result.index(embedFile)` would not find them. If it returned a live view, entries spliced in during the pass could be visited in the same pass. The model's snapshot of positions rests on this; `pak.Archive.find` is not part of this model. Line 112 passes a bare pattern where line 135 passes a list of patterns; both are taken to act alike.
- The bare `except:` at line 113 ends the loop on any exception from `find`. The model assumes `find` raises only when nothing matches.
- The filter `result.find(args.file)` (line 135) and `result.build()` (line 138) are left out. The listing is modelled without name filters, which lists every entry.
- `--details` (`entry.display()`, lines 140-143) and the summary line with file and pad counts and byte sizes (lines 172-181) are left out. They are formatting over engine fields.
- The disabled size annotation under `if (False)` (lines 288-289) is dead code and is left out.
- Console output (`out.print`) is left out. The rendering returns the printed lines in order.
- Expand.ExpandAll: runs at most `fuel` passes. The source loop is unbounded, and a decoder that keeps producing `*.pak` entries would make it run forever; that case ends in `OutOfFuel` here. For nesting of bounded depth, `Expand.FlattenWithin` shows that fuel equal to the depth suffices.
- Listing.ListCommandShowsFlatList: holds for the fuel-bounded expansion, for the same reason.
- Names.Basename: models the POSIX `os.path.basename`, which splits at `/` only. On Windows `ntpath.basename` also splits at `\`, and at a drive colon; that variant is left out.
- The other commands (`add`, `extract`, `hash`, `remove`, `merge`) and `imageBuild/pakbuild.py` are left out. They are orchestration over the archive engine.

=== FILE: expand.dfy ===
/** Expansion of archives embedded in an archive (`list --expand`): entries
    named `*.pak` are decoded and replaced, in place, by their own entries
    under prefixed names, pass after pass, until no `*.pak` entry is left. */
module Expand {
  import opened PakEntry

  /** The positions of the `*.pak` entries among the first `n`, ascending. */
  function PakIndicesBelow(entries: seq<Entry>, n: nat): (r: seq<nat>)
    requires n <= |entries|
    ensures forall k :: 0 <= k < |r| ==> r[k] < n && IsPakName(entries[r[k]].name)
    ensures forall a, b :: 0 <= a < b < |r| ==> r[a] < r[b]
  {
    if n == 0 then []
    else
      var before := PakIndicesBelow(entries, n - 1);
      if IsPakName(entries[n - 1].name) then before + [n - 1] else before
  }

  /** No `*.pak` entry below `n` is missed. */
  lemma {:induction false} PakIndicesBelowComplete(entries: seq<Entry>, n: nat, i: nat)
    requires i < n <= |entries|
    requires IsPakName(entries[i].name)
    ensures i in PakIndicesBelow(entries, n)
    decreases n
  {
    if i < n - 1 {
      PakIndicesBelowComplete(entries, n - 1, i);
    }
  }

  /** The positions of all `*.pak` entries, in list order. */
  function PakIndices(entries: seq<Entry>): seq<nat>
  {
    PakIndicesBelow(entries, |entries|)
  }

  /** `find("*.pak")`: the matching entries (by position), or `NoMatch`
      when none matches. */
  function FindPaks(entries: seq<Entry>): (r: Result<seq<nat>>)
    ensures r.Failure? <==> NoPaks(entries)
    ensures r.Failure? ==> r.error == NoMatch
    ensures r.Success? ==> r.value == PakIndices(entries)
  {
    var paks := PakIndices(entries);
    if |paks| == 0 then
      assert NoPaks(entries) by {
        forall i | 0 <= i < |entries| ensures !IsPakName(entries[i].name) {
          if IsPakName(entries[i].name) {
            PakIndicesBelowComplete(entries, |entries|, i);
          }
        }
      }
      Failure(NoMatch)
    else
      assert IsPakName(entries[paks[0]].name);
      Success(paks)
  }

  /** What one entry becomes in a pass: its decoded, renamed contents when
      it is a `*.pak` entry, itself otherwise. */
  function ExpandEntry(e: Entry, decode: Decoder): Result<seq<Entry>>
  {
    if IsPakName(e.name) then
      match decode(e.data)
      case Corrupt => Failure(CorruptArchive)
      case Loaded(subs) => Success(Renamed(e.name, subs))
    else Success([e])
  }

  /** No `*.pak` entry at positions `lo` up to `hi`. */
  predicate PlainBetween(entries: seq<Entry>, lo: nat, hi: nat)
    requires lo <= hi <= |entries|
  {
    forall j :: lo <= j < hi ==> !IsPakName(entries[j].name)
  }

  /** Reference definition of one pass over the first `n` entries: every
      entry replaced by what it becomes, in order; the first decoding
      failure in list order aborts. */
  function PassBelow(entries: seq<Entry>, n: nat, decode: Decoder): Result<seq<Entry>>
    requires n <= |entries|
  {
    if n == 0 then Success([])
    else
      match PassBelow(entries, n - 1, decode)
      case Failure(err) => Failure(err)
      case Success(front) =>
        match ExpandEntry(entries[n - 1], decode)
        case Failure(err) => Failure(err)
        case Success(tail) => Success(front + tail)
  }

  /** One pass over the whole list. It fails only on an embedded image that
      does not load. */
  function Pass(entries: seq<Entry>, decode: Decoder): (r: Result<seq<Entry>>)
    ensures r.Failure? ==> r.error == CorruptArchive
    ensures r.Failure? <==>
            exists j :: 0 <= j < |entries| && IsPakName(entries[j].name) && decode(entries[j].data).Corrupt?
  {
    PassFailureIsCorrupt(entries, decode, |entries|);
    PassBelow(entries, |entries|, decode)
  }

  /** Entries that are not `*.pak` pass through a pass unchanged. */
  lemma {:induction false} PassPlain(entries: seq<Entry>, decode: Decoder, lo: nat, hi: nat)
    requires lo <= hi <= |entries|
    requires PassBelow(entries, lo, decode).Success?
    requires PlainBetween(entries, lo, hi)
    ensures PassBelow(entries, hi, decode) == Success(PassBelow(entries, lo, decode).value + entries[lo..hi])
    decreases hi
  {
    var front := PassBelow(entries, lo, decode).value;
    if hi == lo {
      assert front + entries[lo..hi] == front;
    } else {
      PassPlain(entries, decode, lo, hi - 1);
      assert !IsPakName(entries[hi - 1].name);
      assert front + entries[lo..hi - 1] + [entries[hi - 1]] == front + entries[lo..hi];
    }
  }

  /** Once a pass has failed on a prefix, nothing after it matters. */
  lemma {:induction false} PassFailureSticks(entries: seq<Entry>, decode: Decoder, lo: nat, hi: nat)
    requires lo <= hi <= |entries|
    requires PassBelow(entries, lo, decode).Failure?
    ensures PassBelow(entries, hi, decode) == PassBelow(entries, lo, decode)
    decreases hi
  {
    if hi > lo {
      PassFailureSticks(entries, decode, lo, hi - 1);
    }
  }

  /** A pass that extends a longer prefix extends every shorter one: what the
      pass has produced so far is never revised. */
  lemma {:induction false} PassPrefix(entries: seq<Entry>, decode: Decoder, lo: nat, hi: nat)
    requires lo <= hi <= |entries|
    requires PassBelow(entries, hi, decode).Success?
    ensures PassBelow(entries, lo, decode).Success?
    ensures PassBelow(entries, lo, decode).value <= PassBelow(entries, hi, decode).value
    decreases hi
  {
    if hi > lo {
      var front := PassBelow(entries, hi - 1, decode);
      PassPrefix(entries, decode, lo, hi - 1);
      var shorter := PassBelow(entries, lo, decode).value;
      var longer := PassBelow(entries, hi, decode).value;
      assert longer == front.value + ExpandEntry(entries[hi - 1], decode).value;
      assert shorter == longer[..|shorter|];
    }
  }

  /** The only way a pass fails is an embedded image that does not load. */
  lemma {:induction false} PassFailureIsCorrupt(entries: seq<Entry>, decode: Decoder, n: nat)
    requires n <= |entries|
    ensures PassBelow(entries, n, decode).Failure? ==> PassBelow(entries, n, decode).error == CorruptArchive
    ensures PassBelow(entries, n, decode).Failure? <==>
            exists j :: 0 <= j < n && IsPakName(entries[j].name) && decode(entries[j].data).Corrupt?
    decreases n
  {
    if n > 0 {
      PassFailureIsCorrupt(entries, decode, n - 1);
    }
  }

  /** A pass over a list without `*.pak` entries returns it unchanged. */
  lemma {:induction false} PassNoPaks(entries: seq<Entry>, decode: Decoder)
    requires NoPaks(entries)
    ensures Pass(entries, decode) == Success(entries)
  {
    PassPlain(entries, decode, 0, |entries|);
    assert [] + entries[0..|entries|] == entries;
  }

  /** A pass decodes each `*.pak` entry once and does not look into what it
      spliced in: a nested `*.pak` entry survives the pass, renamed, and is
      still matched by the filter afterwards. */
  lemma {:induction false} NestedPakDeferred(entries: seq<Entry>, decode: Decoder, pk: nat, subs: seq<Entry>, j: nat)
    requires pk < |entries| && IsPakName(entries[pk].name)
    requires decode(entries[pk].data) == Loaded(subs)
    requires j < |subs| && IsPakName(subs[j].name)
    requires Pass(entries, decode).Success?
    ensures Renamed(entries[pk].name, subs)[j] in Pass(entries, decode).value
    ensures IsPakName(Renamed(entries[pk].name, subs)[j].name)
    ensures FindPaks(Pass(entries, decode).value).Success?
  {
    var named := Renamed(entries[pk].name, subs);
    var out := Pass(entries, decode).value;
    PassPrefix(entries, decode, pk + 1, |entries|);
    PassPrefix(entries, decode, pk, pk + 1);
    var front := PassBelow(entries, pk, decode).value;
    var upto := PassBelow(entries, pk + 1, decode).value;
    assert ExpandEntry(entries[pk], decode) == Success(named);
    assert upto == front + named;
    var at := |front| + j;
    assert upto[at] == named[j];
    assert out[at] == named[j];
    EmbeddedNameKeepsPak(entries[pk].name, subs[j].name);
    assert IsPakName(out[at].name);
  }

  /** `result.index(embedFile)`, taken to act as `list.index` does on entry
      identities: the first position holding `t`. */
  function IndexOf(tags: seq<int>, t: int): (r: nat)
    requires t in tags
    ensures r < |tags| && tags[r] == t
    ensures forall j :: 0 <= j < r ==> tags[j] != t
  {
    if tags[0] == t then 0 else 1 + IndexOf(tags[1..], t)
  }

  function Fresh(n: nat): (r: seq<int>)
    ensures |r| == n && forall j :: 0 <= j < n ==> r[j] == -1
  {
    if n == 0 then [] else Fresh(n - 1) + [-1]
  }

  /** Identities of the entries loaded from the archive file: their original
      positions. Entries decoded later get the identity -1, which never
      names an entry the loop looks up. */
  function Identities(lo: nat, hi: nat): (r: seq<int>)
    requires lo <= hi
    ensures |r| == hi - lo && forall j :: 0 <= j < hi - lo ==> r[j] == lo + j
    decreases hi - lo
  {
    if lo == hi then [] else [lo] + Identities(lo + 1, hi)
  }

  lemma {:induction false} IdentitiesDrop(lo: nat, mid: nat, hi: nat)
    requires lo <= mid <= hi
    ensures Identities(lo, hi)[mid - lo..] == Identities(mid, hi)
  {
    var a, b := Identities(lo, hi)[mid - lo..], Identities(mid, hi);
    assert |a| == |b|;
    forall j | 0 <= j < |a| ensures a[j] == b[j] {
      assert a[j] == Identities(lo, hi)[mid - lo + j];
    }
  }

  /** Inserting `x` at the seam between `a + b` and `c`. */
  lemma {:induction false} InsertAt<T>(s: seq<T>, a: seq<T>, b: seq<T>, c: seq<T>, x: T, at: nat)
    requires s == a + b + c && at == |a| + |b|
    ensures s[..at] + [x] + s[at..] == a + (b + [x]) + c
  {
    assert s[..at] == a + b;
    assert s[at..] == c;
  }

  /** Removing the first element of the part after `a + b`. */
  lemma {:induction false} DropAt<T>(s: seq<T>, a: seq<T>, b: seq<T>, c: seq<T>, at: nat)
    requires |c| >= 1 && s == a + b + c && at == |a| + |b|
    ensures s[..at] + s[at + 1..] == a + b + c[1..]
  {
    assert s[..at] == a + b;
    assert s[at + 1..] == c[1..];
  }

  /** After `m` fresh entries were inserted ahead of the entry with identity
      `target`, looking it up finds it `m` places further on. */
  lemma {:induction false} IndexAfterFresh(tags: seq<int>, target: nat, m: nat)
    requires target in tags
    ensures var p := IndexOf(tags, target);
            var t := tags[..p] + Fresh(m) + tags[p..];
            target in t && IndexOf(t, target) == p + m
  {
    var p := IndexOf(tags, target);
    var t := tags[..p] + Fresh(m) + tags[p..];
    assert t[p + m] == target;
  }

  /** After `m` renamed entries were inserted: they stand, in order, right
      before the embedding entry (identity `target`), and carry identity -1. */
  ghost predicate Inserting(cur: seq<Entry>, tags: seq<int>, target: nat, named: seq<Entry>, m: nat,
                            cur': seq<Entry>, tags': seq<int>)
  {
    && |cur| == |tags| && target in tags && m <= |named|
    && cur' == cur[..IndexOf(tags, target)] + named[..m] + cur[IndexOf(tags, target)..]
    && tags' == tags[..IndexOf(tags, target)] + Fresh(m) + tags[IndexOf(tags, target)..]
  }

  /** Line 129, `result.insert(result.index(embedFile), file)`: the next
      renamed entry goes right after those already inserted, because the
      embedding entry has moved one place to the right for each of them. */
  method InsertBeforeTarget(ghost cur: seq<Entry>, ghost tags: seq<int>, target: nat, parent: string,
                            subs: seq<Entry>, m: nat, cur': seq<Entry>, tags': seq<int>)
    returns (cur'': seq<Entry>, tags'': seq<int>)
    requires m < |subs|
    requires Inserting(cur, tags, target, Renamed(parent, subs), m, cur', tags')
    ensures Inserting(cur, tags, target, Renamed(parent, subs), m + 1, cur'', tags'')
  {
    ghost var p := IndexOf(tags, target);
    ghost var named := Renamed(parent, subs);
    IndexAfterFresh(tags, target, m);
    var at := IndexOf(tags', target);
    var file := subs[m].(name := EmbeddedName(parent, subs[m].name));
    assert named[..m + 1] == named[..m] + [file];
    InsertAt(cur', cur[..p], named[..m], cur[p..], file, at);
    InsertAt(tags', tags[..p], Fresh(m), tags[p..], -1, at);
    cur'' := cur'[..at] + [file] + cur'[at..];
    tags'' := tags'[..at] + [-1] + tags'[at..];
  }

  /** Lines 125-129: each decoded entry is renamed and inserted at the
      current index of the embedding entry (identity `target`), which moves
      one place to the right each time, so the entries keep their order. */
  method InsertRenamed(cur: seq<Entry>, tags: seq<int>, target: nat, parent: string, subs: seq<Entry>)
    returns (cur': seq<Entry>, tags': seq<int>)
    requires |cur| == |tags|
    requires target in tags
    ensures var p := IndexOf(tags, target);
            cur' == cur[..p] + Renamed(parent, subs) + cur[p..]
    ensures var p := IndexOf(tags, target);
            tags' == tags[..p] + Fresh(|subs|) + tags[p..]
  {
    ghost var named := Renamed(parent, subs);
    cur' := cur;
    tags' := tags;
    assert Inserting(cur, tags, target, named, 0, cur', tags') by {
      assert cur == cur[..IndexOf(tags, target)] + named[..0] + cur[IndexOf(tags, target)..];
      assert tags == tags[..IndexOf(tags, target)] + Fresh(0) + tags[IndexOf(tags, target)..];
    }
    var m := 0;
    while m < |subs|
      invariant 0 <= m <= |subs|
      invariant Inserting(cur, tags, target, named, m, cur', tags')
    {
      cur', tags' := InsertBeforeTarget(cur, tags, target, parent, subs, m, cur', tags');
      m := m + 1;
    }
    assert named[..m] == named;
  }

  /** Lines 122-131 for one embedded archive: the decoded entries take the
      place of the embedding entry (identity `target`), in their order, and
      the entries before and after it are untouched. */
  method ExpandOne(cur: seq<Entry>, tags: seq<int>, target: nat, parent: string, subs: seq<Entry>)
    returns (cur': seq<Entry>, tags': seq<int>)
    requires |cur| == |tags|
    requires target in tags
    ensures var p := IndexOf(tags, target);
            cur' == cur[..p] + Renamed(parent, subs) + cur[p + 1..]
    ensures |cur'| == |cur| - 1 + |subs|
    ensures var p := IndexOf(tags, target);
            tags' == tags[..p] + Fresh(|subs|) + tags[p + 1..]
  {
    ghost var p := IndexOf(tags, target);
    ghost var named := Renamed(parent, subs);
    cur', tags' := InsertRenamed(cur, tags, target, parent, subs);
    IndexAfterFresh(tags, target, |subs|);
    var at := IndexOf(tags', target);
    DropAt(cur', cur[..p], named, cur[p..], at);
    DropAt(tags', tags[..p], Fresh(|subs|), tags[p..], at);
    cur' := cur'[..at] + cur'[at + 1..];
    tags' := tags'[..at] + tags'[at + 1..];
  }

  /** Between two consecutive positions of the snapshot there is no `*.pak`
      entry. */
  lemma {:induction false} GapHasNoPaks(entries: seq<Entry>, paks: seq<nat>, k: nat, done: nat)
    requires paks == PakIndices(entries)
    requires k < |paks|
    requires k == 0 ==> done == 0
    requires k > 0 ==> done == paks[k - 1] + 1
    ensures done <= paks[k]
    ensures PlainBetween(entries, done, paks[k])
  {
    forall j | done <= j < paks[k]
      ensures !IsPakName(entries[j].name)
    {
      if IsPakName(entries[j].name) {
        PakIndicesBelowComplete(entries, |entries|, j);
        var m :| 0 <= m < |paks| && paks[m] == j;
        assert false;
      }
    }
  }

  /** After the last position of the snapshot there is no `*.pak` entry. */
  lemma {:induction false} TailHasNoPaks(entries: seq<Entry>, paks: seq<nat>, done: nat)
    requires paks == PakIndices(entries)
    requires |paks| == 0 ==> done == 0
    requires |paks| > 0 ==> done == paks[|paks| - 1] + 1
    ensures done <= |entries|
    ensures PlainBetween(entries, done, |entries|)
  {
    forall j | done <= j < |entries| ensures !IsPakName(entries[j].name) {
      if IsPakName(entries[j].name) {
        PakIndicesBelowComplete(entries, |entries|, j);
      }
    }
  }

  /** With the prefix before `done` already expanded and no `*.pak` entry
      between `done` and `pk`, the expansion up to and including `pk` is the
      old one followed by the plain entries and what `pk` becomes. */
  lemma {:induction false} PassUpTo(entries: seq<Entry>, decode: Decoder, done: nat, pk: nat)
    requires done <= pk < |entries|
    requires PassBelow(entries, done, decode).Success?
    requires PlainBetween(entries, done, pk)
    ensures PassBelow(entries, pk + 1, decode) ==
              match ExpandEntry(entries[pk], decode)
              case Failure(err) => Failure(err)
              case Success(tail) => Success(PassBelow(entries, done, decode).value + entries[done..pk] + tail)
  {
    PassPlain(entries, decode, done, pk);
  }

  /** A `*.pak` entry whose image loads contributes its renamed contents
      right after the plain entries before it. */
  lemma {:induction false} PassLoaded(entries: seq<Entry>, decode: Decoder, done: nat, pk: nat, subs: seq<Entry>)
    requires done <= pk < |entries|
    requires PassBelow(entries, done, decode).Success?
    requires PlainBetween(entries, done, pk)
    requires IsPakName(entries[pk].name) && decode(entries[pk].data) == Loaded(subs)
    ensures PassBelow(entries, pk + 1, decode) ==
            Success(PassBelow(entries, done, decode).value + entries[done..pk] + Renamed(entries[pk].name, subs))
  {
    PassUpTo(entries, decode, done, pk);
  }

  /** A decoding failure at `pk` is the failure of the whole pass. */
  lemma {:induction false} FailureAt(entries: seq<Entry>, decode: Decoder, done: nat, pk: nat)
    requires done <= pk < |entries|
    requires PassBelow(entries, done, decode).Success?
    requires PlainBetween(entries, done, pk)
    requires IsPakName(entries[pk].name) && decode(entries[pk].data).Corrupt?
    ensures Pass(entries, decode) == Failure(CorruptArchive)
  {
    PassUpTo(entries, decode, done, pk);
    PassFailureSticks(entries, decode, pk + 1, |entries|);
  }

  /** Identity bookkeeping of the pass loop: the first `front` entries
      (the expanded part) have identities below `done` (or -1), and the
      rest are the untouched original entries `done`, `done + 1`, ... */
  predicate TagsShape(tags: seq<int>, front: nat, done: nat, n: nat)
  {
    && front <= |tags|
    && done <= n
    && (forall j :: 0 <= j < front ==> tags[j] < done)
    && tags[front..] == Identities(done, n)
  }

  /** The original entry `pk`, not yet reached, is found by identity where
      the untouched rest places it. */
  lemma {:induction false} TagsLocate(tags: seq<int>, front: nat, done: nat, n: nat, pk: nat)
    requires TagsShape(tags, front, done, n)
    requires done <= pk < n
    ensures pk in tags && IndexOf(tags, pk) == front + (pk - done)
  {
    var q := front + (pk - done);
    assert tags[front..][pk - done] == pk;
    forall j | 0 <= j < q ensures tags[j] != pk {
      if j >= front {
        assert tags[front..][j - front] == tags[j];
      }
    }
  }

  /** Replacing the entry `pk` by `m` fresh ones moves the bookkeeping on. */
  lemma {:induction false} TagsAdvance(tags: seq<int>, front: nat, done: nat, n: nat, pk: nat, m: nat)
    requires TagsShape(tags, front, done, n)
    requires done <= pk < n
    ensures var q := front + (pk - done);
            TagsShape(tags[..q] + Fresh(m) + tags[q + 1..], q + m, pk + 1, n)
  {
    var q := front + (pk - done);
    var t := tags[..q] + Fresh(m) + tags[q + 1..];
    forall j | 0 <= j < q + m ensures t[j] < pk + 1 {
      if j < q {
        assert t[j] == tags[j];
        if j >= front {
          assert tags[front..][j - front] == tags[j];
        }
      } else {
        assert t[j] == -1;
      }
    }
    assert t[q + m..] == tags[q + 1..];
    assert tags[front..][pk - done + 1..] == tags[q + 1..];
    IdentitiesDrop(done, pk + 1, n);
  }

  /** The same replacement on the entries themselves. */
  lemma {:induction false} SpliceShape(cur: seq<Entry>, acc: seq<Entry>, entries: seq<Entry>, done: nat, pk: nat, named: seq<Entry>)
    requires done <= pk < |entries|
    requires cur == acc + entries[done..]
    ensures var q := |acc| + (pk - done);
            cur[..q] + named + cur[q + 1..] == (acc + entries[done..pk] + named) + entries[pk + 1..]
  {
    var q := |acc| + (pk - done);
    assert cur[..q] == acc + entries[done..pk];
    assert cur[q + 1..] == entries[pk + 1..];
  }

  /** The state of the pass loop once the original entries before `done`
      have been dealt with: `cur` is their expansion followed by the
      untouched rest, and `tags` gives the identities of `cur`. */
  ghost predicate PassState(entries: seq<Entry>, decode: Decoder, done: nat, cur: seq<Entry>, tags: seq<int>)
  {
    && done <= |entries|
    && PassBelow(entries, done, decode).Success?
    && cur == PassBelow(entries, done, decode).value + entries[done..]
    && |tags| == |cur|
    && TagsShape(tags, |PassBelow(entries, done, decode).value|, done, |entries|)
  }

  lemma {:induction false} TargetPresent(entries: seq<Entry>, decode: Decoder, done: nat, cur: seq<Entry>, tags: seq<int>, pk: nat)
    requires PassState(entries, decode, done, cur, tags)
    requires done <= pk < |entries|
    ensures pk in tags
    ensures IndexOf(tags, pk) == |PassBelow(entries, done, decode).value| + (pk - done)
  {
    TagsLocate(tags, |PassBelow(entries, done, decode).value|, done, |entries|, pk);
  }

  /** Splicing `named` in for the entry `pk` moves the state on to `pk + 1`
      when `named` is what the pass makes of that entry. */
  lemma {:induction false} AdvanceSplice(entries: seq<Entry>, decode: Decoder, done: nat, cur: seq<Entry>, tags: seq<int>,
                      pk: nat, named: seq<Entry>, cur': seq<Entry>, tags': seq<int>)
    requires PassState(entries, decode, done, cur, tags)
    requires done <= pk < |entries|
    requires PassBelow(entries, pk + 1, decode) ==
             Success(PassBelow(entries, done, decode).value + entries[done..pk] + named)
    requires var q := |PassBelow(entries, done, decode).value| + (pk - done);
             && cur' == cur[..q] + named + cur[q + 1..]
             && tags' == tags[..q] + Fresh(|named|) + tags[q + 1..]
    ensures PassState(entries, decode, pk + 1, cur', tags')
  {
    var acc := PassBelow(entries, done, decode).value;
    AdvanceShape(entries, done, pk, acc, named, cur, tags, |acc| + (pk - done), cur', tags');
  }

  /** Expanding the entry `pk` moves the state on to `pk + 1`. */
  lemma {:induction false} AdvanceState(entries: seq<Entry>, decode: Decoder, done: nat, cur: seq<Entry>, tags: seq<int>,
                     pk: nat, subs: seq<Entry>, cur': seq<Entry>, tags': seq<int>)
    requires PassState(entries, decode, done, cur, tags)
    requires done <= pk < |entries|
    requires PlainBetween(entries, done, pk)
    requires IsPakName(entries[pk].name) && decode(entries[pk].data) == Loaded(subs)
    requires pk in tags
    requires var q := IndexOf(tags, pk);
             && cur' == cur[..q] + Renamed(entries[pk].name, subs) + cur[q + 1..]
             && tags' == tags[..q] + Fresh(|subs|) + tags[q + 1..]
    ensures PassState(entries, decode, pk + 1, cur', tags')
  {
    TargetPresent(entries, decode, done, cur, tags, pk);
    PassLoaded(entries, decode, done, pk, subs);
    AdvanceSplice(entries, decode, done, cur, tags, pk, Renamed(entries[pk].name, subs), cur', tags');
  }


  /** The splice of `AdvanceState` on the entries and on the identities,
      for any expanded prefix `acc`. */
  lemma {:induction false} AdvanceShape(entries: seq<Entry>, done: nat, pk: nat, acc: seq<Entry>, named: seq<Entry>,
                     cur: seq<Entry>, tags: seq<int>, q: nat, cur': seq<Entry>, tags': seq<int>)
    requires done <= pk < |entries|
    requires cur == acc + entries[done..] && |tags| == |cur|
    requires TagsShape(tags, |acc|, done, |entries|)
    requires q == |acc| + (pk - done)
    requires cur' == cur[..q] + named + cur[q + 1..]
    requires tags' == tags[..q] + Fresh(|named|) + tags[q + 1..]
    ensures var acc' := acc + entries[done..pk] + named;
            && cur' == acc' + entries[pk + 1..]
            && |tags'| == |cur'|
            && TagsShape(tags', |acc'|, pk + 1, |entries|)
  {
    SpliceShape(cur, acc, entries, done, pk, named);
    TagsAdvance(tags, |acc|, done, |entries|, pk, |named|);
  }

  /** Where the pass stands after the first `k` positions of the snapshot:
      the position right after the last one expanded. */
  function Done(paks: seq<nat>, k: nat): nat
    requires k <= |paks|
  {
    if k == 0 then 0 else paks[k - 1] + 1
  }

  /** The loop state of a pass after the first `k` snapshot positions. */
  ghost predicate PassProgress(entries: seq<Entry>, paks: seq<nat>, decode: Decoder, k: nat,
                               cur: seq<Entry>, tags: seq<int>)
  {
    && paks == PakIndices(entries)
    && k <= |paks|
    && PassState(entries, decode, Done(paks, k), cur, tags)
  }

  /** Lines 119-131 for the `k`-th embedded archive of the snapshot: decode
      it, splice its renamed contents in where it now stands and remove it;
      a decoding failure is the failure of the whole pass. */
  method ExpandSnapshotEntry(entries: seq<Entry>, paks: seq<nat>, decode: Decoder, k: nat,
                             cur: seq<Entry>, tags: seq<int>)
    returns (r: Result<seq<Entry>>, tags': seq<int>)
    requires k < |paks|
    requires PassProgress(entries, paks, decode, k, cur, tags)
    ensures r.Failure? ==> Pass(entries, decode) == r
    ensures r.Success? ==> PassProgress(entries, paks, decode, k + 1, r.value, tags')
  {
    ghost var done := Done(paks, k);
    GapHasNoPaks(entries, paks, k, done);
    var pk := paks[k];
    var embedFile := entries[pk];
    var decoded := decode(embedFile.data);
    if decoded.Corrupt? {
      FailureAt(entries, decode, done, pk);
      return Failure(CorruptArchive), tags;
    }
    assert pk in tags by {
      TargetPresent(entries, decode, done, cur, tags, pk);
    }
    var cur';
    cur', tags' := ExpandOne(cur, tags, pk, embedFile.name, decoded.entries);
    AdvanceState(entries, decode, done, cur, tags, pk, decoded.entries, cur', tags');
    return Success(cur'), tags';
  }

  /** Before the first snapshot position nothing is expanded yet: the list
      is the loaded one and every entry has its own identity. */
  lemma {:induction false} PassStart(entries: seq<Entry>, paks: seq<nat>, decode: Decoder)
    requires paks == PakIndices(entries)
    ensures PassProgress(entries, paks, decode, 0, entries, Identities(0, |entries|))
  {
    TagsStart(|entries|);
    assert PassBelow(entries, 0, decode) == Success([]);
    assert [] + entries[0..] == entries;
  }

  /** Every loaded entry has its own identity, and none is expanded yet. */
  lemma {:induction false} TagsStart(n: nat)
    ensures TagsShape(Identities(0, n), 0, 0, n)
  {
    assert Identities(0, n)[0..] == Identities(0, n);
  }

  /** Once every snapshot position is expanded, the rest of the list holds
      no `*.pak` entry, so the pass is complete. */
  lemma {:induction false} PassComplete(entries: seq<Entry>, paks: seq<nat>, decode: Decoder, cur: seq<Entry>, tags: seq<int>)
    requires PassProgress(entries, paks, decode, |paks|, cur, tags)
    ensures Pass(entries, decode) == Success(cur)
  {
    var done := Done(paks, |paks|);
    TailHasNoPaks(entries, paks, done);
    PassPlain(entries, decode, done, |entries|);
    assert entries[done..|entries|] == entries[done..];
  }

  /** Lines 112-131, one pass of the loop: the `*.pak` entries found at the
      start of the pass (`paks`, taken before any change) are expanded one
      after the other, each at the index it has reached by then; entries
      spliced in during the pass are not looked at. The first decoding
      failure ends the listing. */
  method ExpandPass(entries: seq<Entry>, paks: seq<nat>, decode: Decoder) returns (r: Result<seq<Entry>>)
    requires paks == PakIndices(entries)
    ensures r == Pass(entries, decode)
  {
    var cur := entries;
    var tags := Identities(0, |entries|);
    PassStart(entries, paks, decode);
    var k := 0;
    while k < |paks|
      invariant PassProgress(entries, paks, decode, k, cur, tags)
    {
      var step;
      step, tags := ExpandSnapshotEntry(entries, paks, decode, k, cur, tags);
      if step.Failure? {
        return step;
      }
      cur := step.value;
      k := k + 1;
    }
    PassComplete(entries, paks, decode, cur, tags);
    return Success(cur);
  }

  /** Reference definition of the `while True` loop of lines 110-131, cut off
      after `fuel` passes: it stops as soon as `find("*.pak")` matches
      nothing (its exception is the loop's only exit), and otherwise runs a
      pass and starts over. */
  function Flatten(entries: seq<Entry>, decode: Decoder, fuel: nat): (r: Result<seq<Entry>>)
    ensures r.Success? ==> NoPaks(r.value)
    ensures NoPaks(entries) ==> r == Success(entries)
    decreases fuel
  {
    match FindPaks(entries)
    case Failure(_) => Success(entries)
    case Success(_) =>
      if fuel == 0 then Failure(OutOfFuel)
      else
        match Pass(entries, decode)
        case Failure(err) => Failure(err)
        case Success(next) => Flatten(next, decode, fuel - 1)
  }

  /** More fuel never changes an outcome that did not run out of fuel. */
  lemma {:induction false} FlattenFuelMonotone(entries: seq<Entry>, decode: Decoder, fuel: nat, more: nat)
    requires fuel <= more
    requires Flatten(entries, decode, fuel) != Failure(OutOfFuel)
    ensures Flatten(entries, decode, more) == Flatten(entries, decode, fuel)
    decreases fuel
  {
    if FindPaks(entries).Success? && fuel > 0 {
      match Pass(entries, decode)
      case Failure(err) =>
      case Success(next) =>
        FlattenFuelMonotone(next, decode, fuel - 1, more - 1);
    }
  }

  /** The expansion loop ends in failure only because an embedded image does
      not load or because the fuel bound cut it short; `find` matching
      nothing is its normal exit, never an error. */
  lemma {:induction false} FlattenFailure(entries: seq<Entry>, decode: Decoder, fuel: nat)
    ensures Flatten(entries, decode, fuel).Failure? ==>
            Flatten(entries, decode, fuel).error == CorruptArchive || Flatten(entries, decode, fuel).error == OutOfFuel
    decreases fuel
  {
    if FindPaks(entries).Success? && fuel > 0 {
      PassFailureIsCorrupt(entries, decode, |entries|);
      match Pass(entries, decode)
      case Failure(_) =>
      case Success(next) =>
        FlattenFailure(next, decode, fuel - 1);
    }
  }

  /** Embedded archives nest at most `depth` levels deep: with depth 0 no
      entry is a `*.pak` entry, and with depth d every `*.pak` entry's image
      loads, to entries that nest at most d - 1 levels deep. */
  predicate NestedWithin(entries: seq<Entry>, decode: Decoder, depth: nat)
    decreases depth
  {
    forall i :: 0 <= i < |entries| && IsPakName(entries[i].name) ==>
      && depth > 0
      && decode(entries[i].data).Loaded?
      && NestedWithin(decode(entries[i].data).entries, decode, depth - 1)
  }

  /** Nesting depth 0 means no embedded archive at all. */
  lemma {:induction false} NestedWithinZero(entries: seq<Entry>, decode: Decoder)
    ensures NestedWithin(entries, decode, 0) <==> NoPaks(entries)
  {
  }

  lemma {:induction false} NestedWithinConcat(a: seq<Entry>, b: seq<Entry>, decode: Decoder, depth: nat)
    requires NestedWithin(a, decode, depth) && NestedWithin(b, decode, depth)
    ensures NestedWithin(a + b, decode, depth)
  {
    forall i | 0 <= i < |a + b|
      ensures (a + b)[i] == if i < |a| then a[i] else b[i - |a|]
    {
    }
  }

  /** Renaming keeps the nesting depth: each entry keeps its data and its
      `*.pak` status. */
  lemma {:induction false} NestedWithinRenamed(parent: string, subs: seq<Entry>, decode: Decoder, depth: nat)
    requires NestedWithin(subs, decode, depth)
    ensures NestedWithin(Renamed(parent, subs), decode, depth)
  {
    RenamedKeepsPaks(parent, subs);
  }

  /** A pass over a list nested `depth > 0` levels deep succeeds and leaves
      a list nested one level less. */
  lemma {:induction false} PassLowersNesting(entries: seq<Entry>, decode: Decoder, depth: nat, n: nat)
    requires n <= |entries| && depth > 0
    requires NestedWithin(entries, decode, depth)
    ensures PassBelow(entries, n, decode).Success?
    ensures NestedWithin(PassBelow(entries, n, decode).value, decode, depth - 1)
    decreases n
  {
    if n > 0 {
      PassLowersNesting(entries, decode, depth, n - 1);
      var front := PassBelow(entries, n - 1, decode).value;
      var e := entries[n - 1];
      if IsPakName(e.name) {
        NestedWithinRenamed(e.name, decode(e.data).entries, decode, depth - 1);
        NestedWithinConcat(front, Renamed(e.name, decode(e.data).entries), decode, depth - 1);
      } else {
        assert NestedWithin([e], decode, depth - 1);
        NestedWithinConcat(front, [e], decode, depth - 1);
      }
    }
  }

  /** The loop's progress: archives nested at most `depth` levels deep are
      flattened within `depth` passes, so the fuel bound is never reached
      when it is at least the nesting depth. */
  lemma {:induction false} FlattenWithin(entries: seq<Entry>, decode: Decoder, depth: nat, fuel: nat)
    requires NestedWithin(entries, decode, depth) && depth <= fuel
    ensures Flatten(entries, decode, fuel).Success?
    decreases fuel
  {
    if FindPaks(entries).Success? {
      var i :| 0 <= i < |entries| && IsPakName(entries[i].name);
      assert depth > 0;
      PassLowersNesting(entries, decode, depth, |entries|);
      FlattenWithin(Pass(entries, decode).value, decode, depth - 1, fuel - 1);
    }
  }

  /** Lines 108-131: expand embedded archives until none is left, running at
      most `fuel` passes. */
  method ExpandAll(entries: seq<Entry>, decode: Decoder, fuel: nat) returns (r: Result<seq<Entry>>)
    ensures r == Flatten(entries, decode, fuel)
    ensures r.Success? ==> NoPaks(r.value)
  {
    var cur := entries;
    var left := fuel;
    while true
      invariant Flatten(cur, decode, left) == Flatten(entries, decode, fuel)
      decreases left
    {
      var found := FindPaks(cur);
      if found.Failure? {
        return Success(cur);
      }
      if left == 0 {
        return Failure(OutOfFuel);
      }
      var next := ExpandPass(cur, found.value, decode);
      if next.Failure? {
        return next;
      }
      cur := next.value;
      left := left - 1;
    }
  }
}

=== FILE: listing.dfy ===
/** The `list` command without `--details` and without name filters: with
    `--expand`, embedded archives are expanded until none is left; the entry
    list is then drawn as a tree under the archive's base name. */
module Listing {
  import opened PakEntry
  import opened Names
  import opened Expand
  import opened NameTree
  import opened Render

  /** Lines 108-170: the printed tree, or the failure raised while
      expanding. */
  function ListCommand(entries: seq<Entry>, expand: bool, decode: Decoder, fuel: nat, archive: string)
    : (r: Result<seq<string>>)
    ensures !expand ==> r.Success?
    ensures r.Failure? ==> r.error == CorruptArchive || r.error == OutOfFuel
  {
    FlattenFailure(entries, decode, fuel);
    if !expand then Success(ListTree(entries, archive))
    else
      match Flatten(entries, decode, fuel)
      case Failure(e) => Failure(e)
      case Success(flat) => Success(ListTree(flat, archive))
  }

  /** Every entry of `entries` has a row of the outline showing its label,
      at the depth of the branch of its final component. */
  predicate ShowsEveryEntry(entries: seq<Entry>)
  {
    forall j :: 0 <= j < |entries| ==> Row(EntryDepth(entries[j]), EntryLabel(entries[j])) in Outline(Build(entries))
  }

  lemma {:induction false} EveryEntryShown(entries: seq<Entry>)
    ensures ShowsEveryEntry(entries)
  {
    forall j | 0 <= j < |entries|
      ensures Row(EntryDepth(entries[j]), EntryLabel(entries[j])) in Outline(Build(entries))
    {
      BuildShowsEveryEntry(entries, j);
    }
  }

  /** Without `--expand` the archive's own entries are drawn, embedded
      archives included, and the listing cannot fail: every leaf holds the
      entry at its position, and every entry has a line showing its label. */
  lemma {:induction false} ListCommandUnexpanded(entries: seq<Entry>, decode: Decoder, fuel: nat, archive: string)
    ensures var r := ListCommand(entries, false, decode, fuel, archive);
            && r.Success?
            && (forall j: nat :: j in Leaves(Build(entries)) <==> j < |entries|)
            && LeafEntries(Build(entries), entries)
            && ShowsEveryEntry(entries)
            && |r.value| == (if Basename(archive) != "" then 1 else 0) + |Outline(Build(entries))|
  {
    EveryEntryShown(entries);
  }

  /** A listing that succeeds draws the fully expanded list: every entry of
      it appears in the tree, under its own label, and nothing else does;
      none of them is an embedded archive, and there is one line per key of
      the tree after the archive's name. */
  lemma {:induction false} ListCommandShowsFlatList(entries: seq<Entry>, decode: Decoder, fuel: nat, archive: string)
    ensures var f := Flatten(entries, decode, fuel);
            var r := ListCommand(entries, true, decode, fuel, archive);
            && (r.Success? <==> f.Success?)
            && (r.Failure? ==> r.error == f.error)
            && (f.Success? ==>
                  && NoPaks(f.value)
                  && (forall j: nat :: j in Leaves(Build(f.value)) <==> j < |f.value|)
                  && LeafEntries(Build(f.value), f.value)
                  && ShowsEveryEntry(f.value)
                  && |r.value| == (if Basename(archive) != "" then 1 else 0) + |Outline(Build(f.value))|)
  {
    var f := Flatten(entries, decode, fuel);
    if f.Success? {
      EveryEntryShown(f.value);
    }
  }

  /** With fuel at least the nesting depth of the embedded archives, the
      expanded listing succeeds and shows the fully expanded list. */
  lemma {:induction false} ListCommandNestedWithin(entries: seq<Entry>, decode: Decoder, depth: nat, fuel: nat,
                                                   archive: string)
    requires NestedWithin(entries, decode, depth) && depth <= fuel
    ensures ListCommand(entries, true, decode, fuel, archive).Success?
    ensures NoPaks(Flatten(entries, decode, fuel).value)
  {
    FlattenWithin(entries, decode, depth, fuel);
  }
}

=== FILE: names.dfy ===
/** Entry names are slash-separated paths. The listing splits them into
    components (Python's `str.split('/')`) and labels files by the last
    component (`os.path.basename`). */
module Names {

  const Slash: char := '/'

  /** `s.split(sep)`: the maximal runs between separators, in order; there is
      always at least one component, and adjacent separators give empty
      components. */
  function Split(s: string, sep: char): (parts: seq<string>)
    ensures |parts| >= 1
    ensures forall i :: 0 <= i < |parts| ==> sep !in parts[i]
    ensures Join(parts, sep) == s
    decreases |s|
  {
    if s == [] then [[]]
    else
      var rest := Split(s[1..], sep);
      if s[0] == sep then
        assert [sep] + Join(rest, sep) == s;
        [[]] + rest
      else
        JoinConsHead(s[0], rest, sep);
        [[s[0]] + rest[0]] + rest[1..]
  }

  /** `sep.join(parts)`, the inverse of `Split`. */
  function Join(parts: seq<string>, sep: char): string
    requires |parts| >= 1
  {
    if |parts| == 1 then parts[0] else parts[0] + [sep] + Join(parts[1..], sep)
  }

  /** Prepending a character to the first component prepends it to the join. */
  lemma {:induction false} JoinConsHead(c: char, parts: seq<string>, sep: char)
    requires |parts| >= 1
    ensures Join([[c] + parts[0]] + parts[1..], sep) == [c] + Join(parts, sep)
  {
    var q := [[c] + parts[0]] + parts[1..];
    assert q[1..] == parts[1..];
  }

  /** Splitting the join of separator-free components gives them back. */
  lemma {:induction false} SplitJoin(parts: seq<string>, sep: char)
    requires |parts| >= 1
    requires forall i :: 0 <= i < |parts| ==> sep !in parts[i]
    ensures Split(Join(parts, sep), sep) == parts
    decreases |Join(parts, sep)|, |parts[0]|
  {
    var s := Join(parts, sep);
    if parts[0] == [] {
      if |parts| == 1 {
      } else {
        SplitJoin(parts[1..], sep);
        assert s[1..] == Join(parts[1..], sep);
      }
    } else {
      var c := parts[0][0];
      var shorter := [parts[0][1..]] + parts[1..];
      assert shorter[1..] == parts[1..];
      assert forall i :: 0 < i < |shorter| ==> shorter[i] == parts[i];
      assert sep !in shorter[0];
      JoinConsHead(c, shorter, sep);
      assert [c] + shorter[0] == parts[0];
      assert [[c] + shorter[0]] + shorter[1..] == parts;
      assert s == [c] + Join(shorter, sep);
      assert s[1..] == Join(shorter, sep);
      SplitJoin(shorter, sep);
      assert [[c] + shorter[0]] + shorter[1..] == parts;
    }
  }

  /** `parts[-1]`. */
  function Last<T>(parts: seq<T>): T
    requires |parts| >= 1
  {
    parts[|parts| - 1]
  }

  /** `os.path.basename` on POSIX paths: everything after the last slash,
      the whole name when it has none. */
  function Basename(s: string): (b: string)
    ensures Slash !in b
    ensures |b| <= |s| && b == s[|s| - |b|..]
    ensures |b| < |s| ==> s[|s| - |b| - 1] == Slash
    decreases |s|
  {
    if s == [] || s[|s| - 1] == Slash then []
    else
      var front := Basename(s[..|s| - 1]);
      assert s[..|s| - 1][|s| - 1 - |front|..] + [s[|s| - 1]] == s[|s| - |front| - 1..];
      front + [s[|s| - 1]]
  }

  /** A string has one suffix that is free of `sep` and is either the whole
      string or follows a `sep`. */
  lemma {:induction false} SeparatedSuffixUnique(s: string, sep: char, a: string, b: string)
    requires |a| <= |s| && a == s[|s| - |a|..] && sep !in a
    requires |a| < |s| ==> s[|s| - |a| - 1] == sep
    requires |b| <= |s| && b == s[|s| - |b|..] && sep !in b
    requires |b| < |s| ==> s[|s| - |b| - 1] == sep
    ensures a == b
  {
  }

  /** The join ends with the last component, after a separator when there
      is more than one component. */
  lemma {:induction false} JoinLast(parts: seq<string>, sep: char)
    requires |parts| >= 2
    ensures Join(parts, sep) == Join(parts[..|parts| - 1], sep) + [sep] + Last(parts)
    decreases |parts|
  {
    if |parts| > 2 {
      JoinLast(parts[1..], sep);
      assert parts[1..][..|parts| - 2] == parts[..|parts| - 1][1..];
    }
  }

  /** The last component of a split is separator-free and is either the
      whole string or follows a separator. */
  lemma {:induction false} LastOfSplit(s: string, sep: char)
    ensures var l := Last(Split(s, sep));
            && sep !in l
            && |l| <= |s| && l == s[|s| - |l|..]
            && (|l| < |s| ==> s[|s| - |l| - 1] == sep)
  {
    var parts := Split(s, sep);
    var l := Last(parts);
    if |parts| == 1 {
      assert l == s by {
        assert Join(parts, sep) == parts[0];
      }
    } else {
      JoinLast(parts, sep);
      SuffixAfter(Join(parts[..|parts| - 1], sep), sep, l);
    }
  }

  /** In `front + [sep] + l`, the suffix of length `|l|` is `l`, after `sep`. */
  lemma {:induction false} SuffixAfter(front: string, sep: char, l: string)
    ensures var s := front + [sep] + l;
            s[|s| - |l|..] == l && s[|s| - |l| - 1] == sep
  {
  }

  /** The file label used in the listing, `os.path.basename(name)`, is the
      last component of the split name. */
  lemma {:induction false} BasenameIsLastComponent(s: string)
    ensures Basename(s) == Last(Split(s, Slash))
  {
    LastOfSplit(s, Slash);
    var l := Last(Split(s, Slash));
    SeparatedSuffixUnique(s, Slash, Basename(s), l);
  }

  /** A name after the last slash is its own base name. */
  lemma {:induction false} BasenameAfterSlash(dir: string, name: string)
    requires Slash !in name
    ensures Basename(dir + [Slash] + name) == name
  {
    SuffixAfter(dir, Slash, name);
    SeparatedSuffixUnique(dir + [Slash] + name, Slash, Basename(dir + [Slash] + name), name);
  }

  /** A directory and a name, both slash-free, split into two components. */
  lemma {:induction false} SplitPair(dir: string, name: string)
    requires Slash !in dir && Slash !in name
    ensures Split(dir + [Slash] + name, Slash) == [dir, name]
  {
    assert Join([dir, name], Slash) == dir + [Slash] + name by {
      assert [dir, name][1..] == [name];
    }
    SplitJoin([dir, name], Slash);
  }
}

=== FILE: pak_entry.dfy ===
/** The entry model seen by the listing front end: an archive is an ordered
    list of entries, each a file or an alignment pad, carrying its
    decompressed bytes. Decoding a nested archive image is done by the
    archive engine, which is not part of this model; it is passed in as a
    function value. */
module PakEntry {

  datatype Kind = File | Pad

  /** One archived unit. `data` is the decompressed payload. */
  datatype Entry = Entry(name: string, kind: Kind, data: seq<bv8>)

  /** Failures that reach the listing flow: a nested image that does not
      load, and `find` matching nothing. `OutOfFuel` is not raised by the
      program: it marks a run of the expansion loop cut short by the model's
      fuel bound, and no decoder can produce it. */
  datatype Error = CorruptArchive | NoMatch | OutOfFuel

  datatype Result<T> = Success(value: T) | Failure(error: Error)

  /** The outcome of loading an in-memory image as an archive: the entries in
      image order, or the engine raising because the image is not a valid
      archive. */
  datatype Decoded = Corrupt | Loaded(entries: seq<Entry>)

  type Decoder = seq<bv8> -> Decoded

  const PakSuffix: string := ".pak"

  /** Written between the embedding entry's name and a nested entry's name. */
  const NestSeparator: string := ">/"

  /** The name filter `*.pak`: the name ends in ".pak". */
  predicate IsPakName(name: string)
  {
    |name| >= |PakSuffix| && name[|name| - |PakSuffix|..] == PakSuffix
  }

  predicate NoPaks(entries: seq<Entry>)
  {
    forall i :: 0 <= i < |entries| ==> !IsPakName(entries[i].name)
  }

  /** The name a nested entry receives when spliced into its parent. */
  function EmbeddedName(parent: string, name: string): string
  {
    parent + NestSeparator + name
  }

  /** `name` lies under the embedding entry `parent`: it starts with the
      parent's name and the separator. */
  predicate NestedUnder(parent: string, name: string)
  {
    |name| >= |parent| + |NestSeparator| && name[..|parent| + |NestSeparator|] == parent + NestSeparator
  }

  /** The inverse of `EmbeddedName`: a nested name relative to its parent. */
  function InnerName(parent: string, name: string): string
    requires NestedUnder(parent, name)
  {
    name[|parent| + |NestSeparator|..]
  }

  /** Stripping the parent's prefix from an embedded name gives the nested
      entry's own name back, so renaming loses nothing. */
  lemma {:induction false} EmbeddedNameRoundTrip(parent: string, name: string)
    ensures NestedUnder(parent, EmbeddedName(parent, name))
    ensures InnerName(parent, EmbeddedName(parent, name)) == name
  {
    var r := EmbeddedName(parent, name);
    assert r[..|parent| + |NestSeparator|] == parent + NestSeparator;
    assert r[|parent| + |NestSeparator|..] == name;
  }

  /** Every entry of `subs`, renamed relative to the embedding entry: in the
      same order, with the same kind and data, and a name under `parent`
      from which the original name is recovered. */
  function Renamed(parent: string, subs: seq<Entry>): (r: seq<Entry>)
    ensures |r| == |subs|
    ensures forall i :: 0 <= i < |subs| ==>
              && r[i].kind == subs[i].kind && r[i].data == subs[i].data
              && NestedUnder(parent, r[i].name)
              && InnerName(parent, r[i].name) == subs[i].name
  {
    seq(|subs|, i requires 0 <= i < |subs| => subs[i].(name := EmbeddedName(parent, subs[i].name)))
  }

  /** Renaming keeps the original name as a suffix, so a nested entry is
      matched by the `*.pak` filter after renaming exactly when it was
      before: the separator cannot complete a ".pak" suffix on its own. */
  lemma {:induction false} EmbeddedNameKeepsPak(parent: string, name: string)
    ensures IsPakName(EmbeddedName(parent, name)) <==> IsPakName(name)
  {
    var r := EmbeddedName(parent, name);
    var n := |r|;
    assert r[n - |name|..] == name;
    if |name| >= 4 {
      assert r[n - 4..] == name[|name| - 4..];
    } else if |name| == 3 {
      assert r[n - 4] == '/';
    } else if |name| == 2 {
      assert r[n - 4] == '>';
    } else if |name| == 1 {
      assert r[n - 3] == '>';
    } else {
      assert r[n - 1] == '/';
    }
  }

  /** Renaming a whole sub-archive leaves its `*.pak` members where they were. */
  lemma {:induction false} RenamedKeepsPaks(parent: string, subs: seq<Entry>)
    ensures forall i :: 0 <= i < |subs| ==>
              (IsPakName(Renamed(parent, subs)[i].name) <==> IsPakName(subs[i].name))
  {
    forall i | 0 <= i < |subs|
      ensures IsPakName(Renamed(parent, subs)[i].name) <==> IsPakName(subs[i].name)
    {
      EmbeddedNameKeepsPak(parent, subs[i].name);
    }
  }
}

=== FILE: render.dfy ===
/** The text rendering of the name trie, in the style of the `tree` command:
    an optional root line, then one line per key, depth first in key order,
    each made of the inherited indentation, a connector and a label. Output
    is returned as the sequence of printed lines. */
module Render {
  import opened PakEntry
  import opened Names
  import opened NameTree

  const Tee: string := "|-- "
  const Elbow: string := "`-- "
  /** Indentation under a key that has later siblings. */
  const Rail: string := "|   "
  /** Indentation under the last key of a branch. */
  const Gap: string := "    "
  const PadLabel: string := "|<pad>|"

  /** What a line shows for a key: the component for a directory, the base
      name for a file entry, a marker for a pad. */
  function Label(item: Item): string
  {
    match item
    case DirItem(n, _) => n
    case LeafItem(_, e) => if e.kind == File then Basename(e.name) else PadLabel
  }

  /** `keys[-1] == key`: the key at position `k` equals the branch's last key. */
  predicate IsLastKey(kids: seq<Item>, k: nat)
    requires k < |kids|
  {
    KeyOf(kids[k]) == KeyOf(kids[|kids| - 1])
  }

  /** Lines 261-295: the lines for the keys of `kids` from position `k` on. */
  function RenderFrom(kids: seq<Item>, prefix: string, k: nat): seq<string>
    requires k <= |kids|
    decreases kids, |kids| - k, 1
  {
    if k == |kids| then [] else KeyLines(kids, prefix, k) + RenderFrom(kids, prefix, k + 1)
  }

  /** Lines 264-295 for one key: its line, then the lines of its sub-branch. */
  function KeyLines(kids: seq<Item>, prefix: string, k: nat): seq<string>
    requires k < |kids|
    decreases kids, |kids| - k, 0
  {
    var last := IsLastKey(kids, k);
    var line := prefix + (if last then Elbow else Tee) + Label(kids[k]);
    match kids[k]
    case DirItem(_, sub) => [line] + RenderFrom(sub, prefix + (if last then Gap else Rail), 0)
    case LeafItem(_, _) => [line]
  }

  /** Lines 251-297 called at the top: the root line when the root name is
      non-empty, then the tree. */
  function PrintTree(kids: seq<Item>, root: string): (lines: seq<string>)
    ensures root != "" ==> |lines| >= 1 && lines[0] == root
  {
    (if root != "" then [root] else []) + RenderFrom(kids, "", 0)
  }

  /** Lines 147-170: the listing of `entries` for the archive at `archive`. */
  function ListTree(entries: seq<Entry>, archive: string): (lines: seq<string>)
    ensures |lines| == (if Basename(archive) != "" then 1 else 0) + |Outline(Build(entries))|
    ensures ShowsAll(lines[if Basename(archive) != "" then 1 else 0..], "", Outline(Build(entries)))
  {
    PrintTreeShowsOutline(Build(entries), Basename(archive));
    PrintTree(Build(entries), Basename(archive))
  }

  // ---------------------------------------------------------------------
  // A reference outline of the tree

  /** One key of the tree with its depth below the rendered branch. */
  datatype Row = Row(depth: nat, text: string)

  /** The rows of a sub-branch, one level deeper. */
  function Deeper(rows: seq<Row>): seq<Row>
  {
    seq(|rows|, i requires 0 <= i < |rows| => Row(rows[i].depth + 1, rows[i].text))
  }

  /** Every key of a branch in depth-first order, parents before children,
      siblings in insertion order. */
  function Outline(branch: seq<Item>): seq<Row>
    decreases branch
  {
    if branch == [] then []
    else
      var sub := match branch[0] case DirItem(_, kids) => Deeper(Outline(kids)) case LeafItem(_, _) => [];
      [Row(0, Label(branch[0]))] + sub + Outline(branch[1..])
  }

  /** A printed line shows `row`: it starts with the caller's prefix, then
      four columns of indentation per level, a four-column connector and the
      row's label. */
  predicate Shows(line: string, prefix: string, row: Row)
  {
    var at := |prefix| + 4 * row.depth;
    && |line| == at + 4 + |row.text|
    && line[..|prefix|] == prefix
    && (line[at..at + 4] == Tee || line[at..at + 4] == Elbow)
    && line[at + 4..] == row.text
  }

  /** Line `i` of `lines` shows row `i` of `rows`, for every `i`. */
  predicate ShowsAll(lines: seq<string>, prefix: string, rows: seq<Row>)
  {
    |lines| == |rows| && forall i :: 0 <= i < |lines| ==> Shows(lines[i], prefix, rows[i])
  }

  lemma {:induction false} ShowsDeeper(line: string, prefix: string, fix: string, row: Row)
    requires |fix| == 4
    requires Shows(line, prefix + fix, row)
    ensures Shows(line, prefix, Row(row.depth + 1, row.text))
  {
    assert line[..|prefix|] == (line[..|prefix + fix|])[..|prefix|];
  }

  /** Lines drawn under a longer prefix show the rows one level deeper. */
  lemma {:induction false} ShowsAllDeeper(lines: seq<string>, prefix: string, fix: string, rows: seq<Row>)
    requires |fix| == 4
    requires ShowsAll(lines, prefix + fix, rows)
    ensures ShowsAll(lines, prefix, Deeper(rows))
  {
    forall i | 0 <= i < |lines| ensures Shows(lines[i], prefix, Deeper(rows)[i]) {
      ShowsDeeper(lines[i], prefix, fix, rows[i]);
    }
  }

  lemma {:induction false} ShowsAllConcat(a: seq<string>, ra: seq<Row>, b: seq<string>, rb: seq<Row>, prefix: string)
    requires ShowsAll(a, prefix, ra) && ShowsAll(b, prefix, rb)
    ensures ShowsAll(a + b, prefix, ra + rb)
  {
    forall i | 0 <= i < |a + b| ensures Shows((a + b)[i], prefix, (ra + rb)[i]) {
      if i < |a| {
        assert (a + b)[i] == a[i] && (ra + rb)[i] == ra[i];
      } else {
        assert (a + b)[i] == b[i - |a|] && (ra + rb)[i] == rb[i - |a|];
      }
    }
  }

  /** The line of one key shows it at depth zero. */
  lemma {:induction false} KeyLineShows(prefix: string, conn: string, item: Item)
    requires conn == Tee || conn == Elbow
    ensures ShowsAll([prefix + conn + Label(item)], prefix, [Row(0, Label(item))])
  {
    var line := prefix + conn + Label(item);
    assert line[..|prefix|] == prefix;
    assert line[|prefix|..|prefix| + 4] == conn;
    assert line[|prefix| + 4..] == Label(item);
  }

  /** The outline of a branch is the outline of its first key followed by
      that of the others. */
  lemma {:induction false} OutlineCons(branch: seq<Item>)
    requires branch != []
    ensures Outline(branch) == Outline([branch[0]]) + Outline(branch[1..])
  {
    assert [branch[0]][0] == branch[0] && [branch[0]][1..] == [];
  }

  /** The rendering prints exactly the outline: one line per key, in
      depth-first key order, each indented by its depth. */
  lemma {:induction false} RenderShowsOutline(kids: seq<Item>, prefix: string, k: nat)
    requires k <= |kids|
    ensures ShowsAll(RenderFrom(kids, prefix, k), prefix, Outline(kids[k..]))
    decreases kids, |kids| - k, 1
  {
    if k < |kids| {
      KeyLinesShowsOutline(kids, prefix, k);
      RenderShowsOutline(kids, prefix, k + 1);
      OutlineCons(kids[k..]);
      assert kids[k..][0] == kids[k] && kids[k..][1..] == kids[k + 1..];
      ShowsAllConcat(KeyLines(kids, prefix, k), Outline([kids[k]]),
                     RenderFrom(kids, prefix, k + 1), Outline(kids[k + 1..]), prefix);
    } else {
      assert kids[k..] == [];
    }
  }

  /** The lines of one key show the outline of that key alone. */
  lemma {:induction false} KeyLinesShowsOutline(kids: seq<Item>, prefix: string, k: nat)
    requires k < |kids|
    ensures ShowsAll(KeyLines(kids, prefix, k), prefix, Outline([kids[k]]))
    decreases kids, |kids| - k, 0
  {
    var last := IsLastKey(kids, k);
    var fix := if last then Gap else Rail;
    var conn := if last then Elbow else Tee;
    var line := prefix + conn + Label(kids[k]);
    var head := [Row(0, Label(kids[k]))];
    KeyLineShows(prefix, conn, kids[k]);
    assert [kids[k]][0] == kids[k] && [kids[k]][1..] == [];
    match kids[k] {
      case DirItem(_, s) =>
        var below := RenderFrom(s, prefix + fix, 0);
        RenderShowsOutline(s, prefix + fix, 0);
        assert s[0..] == s;
        ShowsAllDeeper(below, prefix, fix, Outline(s));
        ShowsAllConcat([line], head, below, Deeper(Outline(s)), prefix);
        assert KeyLines(kids, prefix, k) == [line] + below;
        assert Outline([kids[k]]) == head + Deeper(Outline(s)) + [];
      case LeafItem(_, _) =>
        assert KeyLines(kids, prefix, k) == [line];
        assert Outline([kids[k]]) == head + [] + [];
    }
  }


  /** The whole listing: the root line, if any, then one line per key of the
      tree, each showing its key's label at its depth. */
  lemma {:induction false} PrintTreeShowsOutline(kids: seq<Item>, root: string)
    ensures |PrintTree(kids, root)| == (if root != "" then 1 else 0) + |Outline(kids)|
    ensures ShowsAll(PrintTree(kids, root)[if root != "" then 1 else 0..], "", Outline(kids))
  {
    RenderShowsOutline(kids, "", 0);
    assert kids[0..] == kids;
    assert PrintTree(kids, root)[if root != "" then 1 else 0..] == RenderFrom(kids, "", 0);
  }

  // ---------------------------------------------------------------------
  // The block of each key

  /** Dict keys are unique, so comparing with the last key singles out the
      last position: the elbow connector marks exactly the last key of each
      branch. */
  lemma {:induction false} LastKeyIsLastPosition(kids: seq<Item>, k: nat)
    requires UniqueKeys(kids) && k < |kids|
    ensures IsLastKey(kids, k) <==> k == |kids| - 1
  {
  }

  /** `b` is a suffix of `a`. */
  predicate EndsWith<T(==)>(a: seq<T>, b: seq<T>)
  {
    |b| <= |a| && a[|a| - |b|..] == b
  }

  lemma {:induction false} EndsWithSelf<T>(a: seq<T>)
    ensures EndsWith(a, a)
  {
    assert a[0..] == a;
  }

  lemma {:induction false} EndsWithTrans<T>(a: seq<T>, b: seq<T>, c: seq<T>)
    requires EndsWith(a, b) && EndsWith(b, c)
    ensures EndsWith(a, c)
  {
    assert a[|a| - |c|..] == a[|a| - |b|..][|b| - |c|..];
  }

  lemma {:induction false} EndsWithPrepend<T>(x: seq<T>, a: seq<T>, b: seq<T>)
    requires EndsWith(a, b)
    ensures EndsWith(x + a, b)
  {
    assert (x + a)[|x + a| - |b|..] == a[|a| - |b|..];
  }

  /** The lines from key `k + 1` on end the lines from key `k` on. */
  lemma {:induction false} RenderStep(kids: seq<Item>, prefix: string, k: nat)
    requires k < |kids|
    ensures EndsWith(RenderFrom(kids, prefix, k), RenderFrom(kids, prefix, k + 1))
  {
    var rest := RenderFrom(kids, prefix, k + 1);
    EndsWithSelf(rest);
    EndsWithPrepend(KeyLines(kids, prefix, k), rest, rest);
  }

  /** Suffixes chain: if each `f(k)` ends with `f(k + 1)`, then `f(i)` ends
      with `f(j)`. */
  lemma {:induction false} EndsWithChain<T>(f: nat -> seq<T>, i: nat, j: nat)
    requires i <= j
    requires forall k: nat :: i <= k < j ==> EndsWith(f(k), f(k + 1))
    ensures EndsWith(f(i), f(j))
    decreases j - i
  {
    if i < j {
      EndsWithChain(f, i + 1, j);
      EndsWithTrans(f(i), f(i + 1), f(j));
    } else {
      EndsWithSelf(f(i));
    }
  }

  /** The lines from key `j` on end the lines from key `i` on. */
  lemma {:induction false} RenderSuffix(kids: seq<Item>, prefix: string, i: nat, j: nat)
    requires i <= j <= |kids|
    ensures EndsWith(RenderFrom(kids, prefix, i), RenderFrom(kids, prefix, j))
  {
    var f := (k: nat) => if k <= |kids| then RenderFrom(kids, prefix, k) else [];
    forall k: nat | i <= k < j
      ensures EndsWith(f(k), f(k + 1))
    {
      RenderStep(kids, prefix, k);
    }
    EndsWithChain(f, i, j);
  }


  /** The lines of key `k` and its sub-branch come right after those of the
      keys before it and their sub-branches. */
  lemma {:induction false} KeyAt(kids: seq<Item>, prefix: string, k: nat)
    requires k < |kids|
    ensures var lines := RenderFrom(kids, prefix, 0);
            var block := KeyLines(kids, prefix, k);
            var at := |Outline(kids)| - |Outline(kids[k..])|;
            0 <= at && at + |block| <= |lines| && lines[at..at + |block|] == block
  {
    var lines := RenderFrom(kids, prefix, 0);
    var rk := RenderFrom(kids, prefix, k);
    var block := KeyLines(kids, prefix, k);
    var rest := RenderFrom(kids, prefix, k + 1);
    assert |lines| == |Outline(kids)| by {
      RenderShowsOutline(kids, prefix, 0);
      assert kids[0..] == kids;
    }
    assert |rk| == |Outline(kids[k..])| by {
      RenderShowsOutline(kids, prefix, k);
    }
    assert EndsWith(lines, rk) by {
      RenderSuffix(kids, prefix, 0, k);
    }
    assert rk == block + rest;
    BlockInside(lines, rk, block, rest, |Outline(kids)|, |Outline(kids[k..])|);
  }

  /** A block that starts a suffix of `a` sits in `a` where that suffix
      starts. */
  lemma {:induction false} BlockInside<T>(a: seq<T>, r: seq<T>, block: seq<T>, rest: seq<T>, n: nat, m: nat)
    requires EndsWith(a, r) && r == block + rest
    requires |a| == n && |r| == m
    ensures 0 <= n - m && n - m + |block| <= |a| && a[n - m..n - m + |block|] == block
  {
    assert a[n - m..n - m + |block|] == r[..|block|];
  }


  /** A key's own line has the elbow exactly when it is the last key; a
      directory's sub-branch follows, drawn with the prefix extended by blank
      columns after the last key and by a rail otherwise. */
  lemma {:induction false} KeyLinesShape(kids: seq<Item>, prefix: string, k: nat)
    requires UniqueKeys(kids) && k < |kids|
    ensures var block := KeyLines(kids, prefix, k);
            var lastKey := k == |kids| - 1;
            && |block| >= 1
            && block[0] == prefix + (if lastKey then Elbow else Tee) + Label(kids[k])
            && (kids[k].DirItem? ==>
                  block[1..] == RenderFrom(kids[k].kids, prefix + (if lastKey then Gap else Rail), 0))
            && (kids[k].LeafItem? ==> |block| == 1)
  {
    LastKeyIsLastPosition(kids, k);
  }

  // ---------------------------------------------------------------------
  // Every entry has its line

  /** The row of each key is a row of the branch's outline. */
  lemma {:induction false} KeyRowIn(branch: seq<Item>, k: nat)
    requires k < |branch|
    ensures Row(0, Label(branch[k])) in Outline(branch)
    decreases k
  {
    OutlineCons(branch);
    if k > 0 {
      KeyRowIn(branch[1..], k - 1);
      assert branch[1..][k - 1] == branch[k];
    } else {
      assert [branch[0]][0] == branch[0] && [branch[0]][1..] == [];
    }
  }

  /** The rows of a directory's sub-branch, one level deeper, are rows of
      the branch's outline. */
  lemma {:induction false} SubRowIn(branch: seq<Item>, k: nat, r: Row)
    requires k < |branch| && branch[k].DirItem?
    requires r in Deeper(Outline(branch[k].kids))
    ensures r in Outline(branch)
    decreases k
  {
    OutlineCons(branch);
    if k > 0 {
      assert branch[1..][k - 1] == branch[k];
      SubRowIn(branch[1..], k - 1, r);
    } else {
      assert [branch[0]][0] == branch[0] && [branch[0]][1..] == [];
      assert Outline([branch[0]]) == [Row(0, Label(branch[0]))] + Deeper(Outline(branch[0].kids)) + [];
    }
  }

  /** A row of a sub-branch's outline appears one level deeper. */
  lemma {:induction false} DeeperRow(rows: seq<Row>, r: Row)
    requires r in rows
    ensures Row(r.depth + 1, r.text) in Deeper(rows)
  {
    var i :| 0 <= i < |rows| && rows[i] == r;
    assert Deeper(rows)[i] == Row(r.depth + 1, r.text);
  }

  /** The label a listed entry's line shows. */
  function EntryLabel(e: Entry): string
  {
    Label(LeafItem(0, e))
  }

  /** In a branch whose leaves hold their listed entries, an entry keyed at
      `path` has a row at depth `|path|` showing that entry's label. */
  lemma {:induction false} LeafRowShown(branch: seq<Item>, entries: seq<Entry>, path: seq<string>, j: nat)
    requires LeafEntries(branch, entries) && LeafAt(branch, path, j)
    ensures j < |entries| && Row(|path|, EntryLabel(entries[j])) in Outline(branch)
    decreases |path|, 1
  {
    if path == [] {
      LeafRowHere(branch, entries, j);
    } else {
      LeafRowBelow(branch, entries, path, j);
    }
  }

  /** `LeafRowShown` for an entry keyed in the branch itself. */
  lemma {:induction false} LeafRowHere(branch: seq<Item>, entries: seq<Entry>, j: nat)
    requires LeafEntries(branch, entries) && Leaf(j) in Keys(branch)
    ensures j < |entries| && Row(0, EntryLabel(entries[j])) in Outline(branch)
  {
    var k :| 0 <= k < |branch| && Keys(branch)[k] == Leaf(j);
    assert KeyOf(branch[k]) == Leaf(j);
    assert branch[k] == LeafItem(j, entries[j]);
    KeyRowIn(branch, k);
  }

  /** `LeafRowShown` for an entry keyed below a directory of the branch. */
  lemma {:induction false} LeafRowBelow(branch: seq<Item>, entries: seq<Entry>, path: seq<string>, j: nat)
    requires LeafEntries(branch, entries) && path != [] && LeafAt(branch, path, j)
    ensures j < |entries| && Row(|path|, EntryLabel(entries[j])) in Outline(branch)
    decreases |path|, 0
  {
    var k :| 0 <= k < |branch| && branch[k].DirItem? && branch[k].name == path[0]
             && LeafAt(branch[k].kids, path[1..], j);
    LeafEntriesBelow(branch, entries, k);
    LeafRowShown(branch[k].kids, entries, path[1..], j);
    RowBelow(branch, k, path, EntryLabel(entries[j]));
  }

  /** The leaves of a directory's sub-branch hold their listed entries too. */
  lemma {:induction false} LeafEntriesBelow(branch: seq<Item>, entries: seq<Entry>, k: nat)
    requires LeafEntries(branch, entries) && k < |branch| && branch[k].DirItem?
    ensures LeafEntries(branch[k].kids, entries)
  {
  }

  /** A row of a directory's sub-branch is a row of the branch, one level
      deeper. */
  lemma {:induction false} RowBelow(branch: seq<Item>, k: nat, path: seq<string>, text: string)
    requires k < |branch| && branch[k].DirItem? && path != []
    requires Row(|path[1..]|, text) in Outline(branch[k].kids)
    ensures Row(|path|, text) in Outline(branch)
  {
    DeeperRow(Outline(branch[k].kids), Row(|path[1..]|, text));
    assert |path[1..]| + 1 == |path|;
    SubRowIn(branch, k, Row(|path|, text));
  }

  /** Every listed entry has a row in the outline of the built trie, at the
      depth of each branch line 157 keys it in, showing its base name or the
      pad marker. */
  lemma {:induction false} BuildShowsEntry(entries: seq<Entry>, j: nat, path: seq<string>)
    requires j < |entries| && KeyedOnDescent(entries[j], path)
    ensures Row(|path|, EntryLabel(entries[j])) in Outline(Build(entries))
  {
    BuildLeafAt(entries, |entries|, path, j);
    LeafRowShown(Build(entries), entries, path, j);
  }

  /** The depth of the branch that keys an entry at its final component:
      the number of differing components before it. */
  function EntryDepth(e: Entry): nat
  {
    var parts := Split(e.name, Slash);
    |Descents(parts[..|parts| - 1], Last(parts))|
  }

  /** Every listed entry is keyed at least at its final component, so it
      has a row in the outline at that depth. */
  lemma {:induction false} BuildShowsEveryEntry(entries: seq<Entry>, j: nat)
    requires j < |entries|
    ensures Row(EntryDepth(entries[j]), EntryLabel(entries[j])) in Outline(Build(entries))
  {
    var parts := Split(entries[j].name, Slash);
    var i := |parts| - 1;
    var path := Descents(parts[..i], Last(parts));
    assert parts[i] == Last(parts);
    assert KeyedOnDescent(entries[j], path);
    BuildShowsEntry(entries, j, path);
  }

  // ---------------------------------------------------------------------
  // An example

  lemma {:induction false} ExampleBasenames()
    ensures Basename("img/x.pak") == "x.pak"
    ensures Basename("d/p") == "p"
  {
    BasenameAfterSlash("img", "x.pak");
    assert "img" + [Slash] + "x.pak" == "img/x.pak";
    BasenameAfterSlash("d", "p");
    assert "d" + [Slash] + "p" == "d/p";
  }

  lemma {:induction false} ExampleBranch(a: Item, b: Item)
    requires a.LeafItem? && b.LeafItem? && a.id != b.id
    ensures RenderFrom([a, b], Gap, 0) == [Gap + Tee + Label(a), Gap + Elbow + Label(b)]
  {
    var sub := [a, b];
    assert !IsLastKey(sub, 0) && IsLastKey(sub, 1);
    assert RenderFrom(sub, Gap, 2) == [];
    assert RenderFrom(sub, Gap, 1) == [Gap + Elbow + Label(b)] + [] + [];
  }

  lemma {:induction false} ExampleLines(x: string, y: string)
    requires x == "p" && y == PadLabel
    ensures ["x.pak"] + ["" + Elbow + "d"] + [Gap + Tee + x, Gap + Elbow + y] ==
            ["x.pak", "`-- d", "    |-- p", "    `-- |<pad>|"]
  {
    assert "" + Elbow + "d" == "`-- d";
    assert Gap + Tee + x == "    |-- p";
    assert Gap + Elbow + y == "    `-- |<pad>|";
  }

  /** The trie of the example drawn under the root `x.pak`. */
  lemma {:induction false} ExampleTree(p: Entry, q: Entry)
    requires p == Entry("d/p", File, p.data) && q == Entry("d/q", Pad, q.data)
    ensures PrintTree([DirItem("d", [LeafItem(0, p), LeafItem(1, q)])], "x.pak") ==
            ["x.pak", "`-- d", "    |-- p", "    `-- |<pad>|"]
  {
    ExampleBasenames();
    var a := LeafItem(0, p);
    var b := LeafItem(1, q);
    ExampleBranch(a, b);
    var sub := [a, b];
    var tree := [DirItem("d", sub)];
    assert IsLastKey(tree, 0) && Label(tree[0]) == "d";
    assert RenderFrom(tree, "", 1) == [];
    assert "" + Gap == Gap;
    assert RenderFrom(tree, "", 0) == ["" + Elbow + "d"] + RenderFrom(sub, Gap, 0);
    assert Label(a) == "p" && Label(b) == PadLabel;
    ExampleLines(Label(a), Label(b));
  }

  /** An archive "img/x.pak" holding a file "d/p" and a pad "d/q". */
  lemma {:induction false} ListingExample(p: Entry, q: Entry)
    requires p == Entry("d/p", File, p.data) && q == Entry("d/q", Pad, q.data)
    ensures ListTree([p, q], "img/x.pak") ==
            ["x.pak", "`-- d", "    |-- p", "    `-- |<pad>|"]
  {
    SharedDirectory(p, q);
    ExampleBasenames();
    ExampleTree(p, q);
  }
}

=== FILE: tree.dfy ===
/** The tree view of `list`: entry names are split at slashes and threaded
    into a trie of ordered branches (Python dicts, which keep insertion
    order). A branch maps directory components to sub-branches and entries
    to the flag `True`; entries are keys by identity, here their position in
    the listed entry sequence. */
module NameTree {
  import opened PakEntry
  import opened Names

  datatype Key = Dir(name: string) | Leaf(id: nat)

  /** One key of a branch together with its value: a directory component
      keys a sub-branch, an entry keys the flag. */
  datatype Item = DirItem(name: string, kids: seq<Item>) | LeafItem(id: nat, entry: Entry)

  function KeyOf(item: Item): Key
  {
    match item
    case DirItem(n, _) => Dir(n)
    case LeafItem(i, _) => Leaf(i)
  }

  /** The dict's keys in insertion order. */
  function Keys(branch: seq<Item>): (ks: seq<Key>)
    ensures |ks| == |branch|
    ensures forall i :: 0 <= i < |branch| ==> ks[i] == KeyOf(branch[i])
  {
    if branch == [] then [] else Keys(branch[..|branch| - 1]) + [KeyOf(branch[|branch| - 1])]
  }

  /** Dict keys are unique. */
  predicate UniqueKeys(branch: seq<Item>)
  {
    forall i, j :: 0 <= i < j < |branch| ==> KeyOf(branch[i]) != KeyOf(branch[j])
  }

  /** Unique keys at every level. */
  predicate WellFormed(branch: seq<Item>)
    decreases branch
  {
    && UniqueKeys(branch)
    && forall i :: 0 <= i < |branch| ==> branch[i].DirItem? ==> WellFormed(branch[i].kids)
  }

  /** `part in branch` for a directory component: its position, or -1. */
  function FindDir(branch: seq<Item>, name: string): (i: int)
    ensures -1 <= i < |branch|
    ensures 0 <= i ==> KeyOf(branch[i]) == Dir(name)
    ensures i == -1 <==> forall j :: 0 <= j < |branch| ==> KeyOf(branch[j]) != Dir(name)
  {
    if |branch| == 0 then -1
    else if KeyOf(branch[|branch| - 1]) == Dir(name) then |branch| - 1
    else FindDir(branch[..|branch| - 1], name)
  }

  /** `branch[entry] = True`: a new key goes to the end, an existing key
      keeps its place. */
  function PutLeaf(branch: seq<Item>, id: nat, e: Entry): seq<Item>
  {
    if Leaf(id) in Keys(branch) then branch else branch + [LeafItem(id, e)]
  }

  /** `PutLeaf` keeps the existing keys in place and ends with the entry keyed. */
  lemma {:induction false} PutLeafKeys(branch: seq<Item>, id: nat, e: Entry)
    ensures Keys(branch) <= Keys(PutLeaf(branch, id, e))
    ensures Leaf(id) in Keys(PutLeaf(branch, id, e))
  {
    if Leaf(id) !in Keys(branch) {
      var r := branch + [LeafItem(id, e)];
      assert Keys(r)[|branch|] == Leaf(id);
    }
  }

  /** Lines 155-167 for one entry `id` whose name has the components
      `parts` and final component `last`: a component equal to `last` puts
      the entry into the current branch and stays there; any other
      component descends into the sub-branch of that name, created at the
      end of the branch when missing. */
  function Place(branch: seq<Item>, parts: seq<string>, last: string, id: nat, e: Entry): seq<Item>
    decreases |parts|
  {
    if parts == [] then branch
    else if parts[0] == last then Place(PutLeaf(branch, id, e), parts[1..], last, id, e)
    else
      var i := FindDir(branch, parts[0]);
      if i < 0 then branch + [DirItem(parts[0], Place([], parts[1..], last, id, e))]
      else branch[i := DirItem(parts[0], Place(branch[i].kids, parts[1..], last, id, e))]
  }

  /** Lines 147-167: the trie of the first `n` entries, built in list order. */
  function BuildBelow(entries: seq<Entry>, n: nat): seq<Item>
    requires n <= |entries|
  {
    if n == 0 then []
    else
      var parts := Split(entries[n - 1].name, Slash);
      Place(BuildBelow(entries, n - 1), parts, Last(parts), n - 1, entries[n - 1])
  }

  /** The trie of the whole list: unique keys at every level, and every
      listed entry keyed exactly once somewhere in it. */
  function Build(entries: seq<Entry>): (r: seq<Item>)
    ensures WellFormed(r)
    ensures forall j: nat :: j in Leaves(r) <==> j < |entries|
    ensures LeafEntries(r, entries)
  {
    BuildWellFormed(entries, |entries|);
    BuildLeafEntries(entries, |entries|);
    BuildLeaves(entries, |entries|);
    PositionsBelow(|entries|);
    BuildBelow(entries, |entries|)
  }

  // ---------------------------------------------------------------------
  // Which entries appear as leaves

  /** The entries keyed anywhere in a branch. */
  function Leaves(branch: seq<Item>): set<nat>
    decreases branch
  {
    if branch == [] then {}
    else
      Leaves(branch[..|branch| - 1]) +
      match branch[|branch| - 1]
      case LeafItem(j, _) => {j}
      case DirItem(_, kids) => Leaves(kids)
  }

  lemma {:induction false} LeavesConcat(a: seq<Item>, b: seq<Item>)
    ensures Leaves(a + b) == Leaves(a) + Leaves(b)
    decreases |b|
  {
    if b == [] {
      assert a + b == a;
    } else {
      var b' := b[..|b| - 1];
      LeavesConcat(a, b');
      assert (a + b)[..|a + b| - 1] == a + b';
    }
  }

  /** The leaves of a branch, split around position `i`. */
  lemma {:induction false} LeavesAround(b: seq<Item>, i: nat)
    requires i < |b|
    ensures Leaves(b) == Leaves(b[..i]) + Leaves([b[i]]) + Leaves(b[i + 1..])
  {
    var front := b[..i + 1];
    var rest := b[i + 1..];
    assert front == b[..i] + [b[i]];
    assert Leaves(front) == Leaves(b[..i]) + Leaves([b[i]]) by {
      LeavesConcat(b[..i], [b[i]]);
    }
    assert Leaves(front + rest) == Leaves(front) + Leaves(rest) by {
      LeavesConcat(front, rest);
    }
    assert front + rest == b;
  }

  lemma {:induction false} PutLeafLeaves(b: seq<Item>, id: nat, e: Entry)
    ensures Leaves(PutLeaf(b, id, e)) == Leaves(b) + {id}
  {
    if Leaf(id) in Keys(b) {
      var i :| 0 <= i < |b| && KeyOf(b[i]) == Leaf(id);
      LeavesAround(b, i);
      assert Leaves([b[i]]) == {id};
    } else {
      LeavesConcat(b, [LeafItem(id, e)]);
      assert Leaves([LeafItem(id, e)]) == {id};
    }
  }

  /** Placing an entry adds exactly that entry to the leaves, provided its
      final component occurs among its components, and nothing otherwise. */
  lemma {:induction false} PlaceLeaves(b: seq<Item>, parts: seq<string>, last: string, id: nat, e: Entry)
    ensures Leaves(Place(b, parts, last, id, e)) == Leaves(b) + (if last in parts then {id} else {})
    decreases |parts|
  {
    if parts == [] {
    } else if parts[0] == last {
      PutLeafLeaves(b, id, e);
      PlaceLeaves(PutLeaf(b, id, e), parts[1..], last, id, e);
    } else {
      assert last in parts <==> last in parts[1..];
      var i := FindDir(b, parts[0]);
      if i < 0 {
        PlaceLeaves([], parts[1..], last, id, e);
        LeavesAppendDir(b, parts[0], Place([], parts[1..], last, id, e));
      } else {
        PlaceLeaves(b[i].kids, parts[1..], last, id, e);
        LeavesReplaceKids(b, i, parts[0], Place(b[i].kids, parts[1..], last, id, e),
                          if last in parts then {id} else {});
      }
    }
  }

  /** A new directory at the end brings the leaves below it. */
  lemma {:induction false} LeavesAppendDir(b: seq<Item>, name: string, sub: seq<Item>)
    ensures Leaves(b + [DirItem(name, sub)]) == Leaves(b) + Leaves(sub)
  {
    LeavesConcat(b, [DirItem(name, sub)]);
    assert Leaves([DirItem(name, sub)]) == Leaves(sub);
  }

  /** Replacing the sub-branch of directory `i` by one with `extra` more
      leaves adds `extra` to the leaves of the branch. */
  lemma {:induction false} LeavesReplaceKids(b: seq<Item>, i: nat, name: string, sub: seq<Item>, extra: set<nat>)
    requires i < |b| && b[i].DirItem?
    requires Leaves(sub) == Leaves(b[i].kids) + extra
    ensures Leaves(b[i := DirItem(name, sub)]) == Leaves(b) + extra
  {
    var b' := b[i := DirItem(name, sub)];
    LeavesAround(b, i);
    LeavesAround(b', i);
    assert b'[..i] == b[..i] && b'[i + 1..] == b[i + 1..];
    assert Leaves([b'[i]]) == Leaves(sub);
    assert Leaves([b[i]]) == Leaves(b[i].kids);
  }

  /** The positions `0 .. n - 1`. */
  function Positions(n: nat): set<nat>
  {
    if n == 0 then {} else Positions(n - 1) + {n - 1}
  }

  lemma {:induction false} PositionsBelow(n: nat)
    ensures forall j: nat :: j in Positions(n) <==> j < n
  {
    if n > 0 {
      PositionsBelow(n - 1);
    }
  }

  /** Threading entry `n - 1` adds exactly that entry to the leaves. */
  lemma {:induction false} BuildLeavesStep(entries: seq<Entry>, n: nat)
    requires 0 < n <= |entries|
    ensures Leaves(BuildBelow(entries, n)) == Leaves(BuildBelow(entries, n - 1)) + {n - 1}
  {
    var parts := Split(entries[n - 1].name, Slash);
    var before := BuildBelow(entries, n - 1);
    assert BuildBelow(entries, n) == Place(before, parts, Last(parts), n - 1, entries[n - 1]);
    PlaceLeavesLast(before, parts, n - 1, entries[n - 1]);
  }

  /** With the last component as the final one, placing adds the entry. */
  lemma {:induction false} PlaceLeavesLast(b: seq<Item>, parts: seq<string>, id: nat, e: Entry)
    requires |parts| >= 1
    ensures Leaves(Place(b, parts, Last(parts), id, e)) == Leaves(b) + {id}
  {
    assert Last(parts) in parts by {
      assert parts[|parts| - 1] == Last(parts);
    }
    PlaceLeaves(b, parts, Last(parts), id, e);
  }

  /** Every listed entry appears as a leaf of the tree, and nothing else
      does. */
  lemma {:induction false} BuildLeaves(entries: seq<Entry>, n: nat)
    requires n <= |entries|
    ensures Leaves(BuildBelow(entries, n)) == Positions(n)
    decreases n
  {
    if n > 0 {
      BuildLeaves(entries, n - 1);
      BuildLeavesStep(entries, n);
    }
  }

  // ---------------------------------------------------------------------
  // Shape of the trie

  /** Keys are only ever added at the end and keep their order, so entries
      sharing a directory reuse the branch made for the first of them. */
  lemma {:induction false} PlaceKeepsKeys(b: seq<Item>, parts: seq<string>, last: string, id: nat, e: Entry)
    ensures Keys(b) <= Keys(Place(b, parts, last, id, e))
    decreases |parts|
  {
    if parts == [] {
    } else if parts[0] == last {
      PlaceKeepsKeys(PutLeaf(b, id, e), parts[1..], last, id, e);
      PutLeafKeys(b, id, e);
    } else {
      var i := FindDir(b, parts[0]);
      if i < 0 {
        KeysAppend(b, DirItem(parts[0], Place([], parts[1..], last, id, e)));
      } else {
        KeysReplace(b, i, DirItem(parts[0], Place(b[i].kids, parts[1..], last, id, e)));
      }
    }
  }

  /** Appending an item appends its key. */
  lemma {:induction false} KeysAppend(b: seq<Item>, x: Item)
    ensures Keys(b) <= Keys(b + [x])
  {
    assert (b + [x])[..|b|] == b;
  }

  /** Replacing an item by one with the same key keeps the keys. */
  lemma {:induction false} KeysReplace(b: seq<Item>, i: nat, x: Item)
    requires i < |b| && KeyOf(x) == KeyOf(b[i])
    ensures Keys(b) == Keys(b[i := x])
  {
    var k, k' := Keys(b), Keys(b[i := x]);
    assert forall j :: 0 <= j < |b| ==> k[j] == k'[j];
  }

  /** Placing an entry keeps every branch free of duplicate keys. */
  lemma {:induction false} PlaceWellFormed(b: seq<Item>, parts: seq<string>, last: string, id: nat, e: Entry)
    requires WellFormed(b)
    ensures WellFormed(Place(b, parts, last, id, e))
    decreases |parts|
  {
    if parts == [] {
    } else if parts[0] == last {
      var b' := PutLeaf(b, id, e);
      PlaceWellFormed(b', parts[1..], last, id, e);
    } else {
      var i := FindDir(b, parts[0]);
      if i < 0 {
        PlaceWellFormed([], parts[1..], last, id, e);
      } else {
        PlaceWellFormed(b[i].kids, parts[1..], last, id, e);
        var b' := b[i := DirItem(parts[0], Place(b[i].kids, parts[1..], last, id, e))];
        assert forall j :: 0 <= j < |b| ==> KeyOf(b'[j]) == KeyOf(b[j]);
      }
    }
  }

  lemma {:induction false} BuildWellFormed(entries: seq<Entry>, n: nat)
    requires n <= |entries|
    ensures WellFormed(BuildBelow(entries, n))
    decreases n
  {
    if n > 0 {
      BuildWellFormed(entries, n - 1);
      BuildWellFormedStep(entries, n);
    }
  }

  /** Threading entry `n - 1` keeps the trie well formed. */
  lemma {:induction false} BuildWellFormedStep(entries: seq<Entry>, n: nat)
    requires 0 < n <= |entries|
    requires WellFormed(BuildBelow(entries, n - 1))
    ensures WellFormed(BuildBelow(entries, n))
  {
    var parts := Split(entries[n - 1].name, Slash);
    PlaceWellFormed(BuildBelow(entries, n - 1), parts, Last(parts), n - 1, entries[n - 1]);
  }

  // ---------------------------------------------------------------------
  // What the leaves hold

  /** Every leaf, at any depth, holds the listed entry at its position. */
  predicate LeafEntries(branch: seq<Item>, entries: seq<Entry>)
    decreases branch
  {
    forall k :: 0 <= k < |branch| ==>
      match branch[k]
      case LeafItem(j, e) => j < |entries| && e == entries[j]
      case DirItem(_, kids) => LeafEntries(kids, entries)
  }

  /** Keying the listed entry `id` keeps every leaf holding its entry. */
  lemma {:induction false} PutLeafEntries(b: seq<Item>, id: nat, e: Entry, entries: seq<Entry>)
    requires LeafEntries(b, entries) && id < |entries| && e == entries[id]
    ensures LeafEntries(PutLeaf(b, id, e), entries)
  {
    if Leaf(id) !in Keys(b) {
      var b' := b + [LeafItem(id, e)];
      assert forall k :: 0 <= k < |b| ==> b'[k] == b[k];
    }
  }

  /** Threading the listed entry `id` keeps every leaf holding its entry. */
  lemma {:induction false} PlaceLeafEntries(b: seq<Item>, parts: seq<string>, last: string, id: nat, e: Entry,
                                            entries: seq<Entry>)
    requires LeafEntries(b, entries) && id < |entries| && e == entries[id]
    ensures LeafEntries(Place(b, parts, last, id, e), entries)
    decreases |parts|
  {
    if parts == [] {
    } else if parts[0] == last {
      PutLeafEntries(b, id, e, entries);
      PlaceLeafEntries(PutLeaf(b, id, e), parts[1..], last, id, e, entries);
    } else {
      var i := FindDir(b, parts[0]);
      if i < 0 {
        var sub := Place([], parts[1..], last, id, e);
        PlaceLeafEntries([], parts[1..], last, id, e, entries);
        var b' := b + [DirItem(parts[0], sub)];
        assert forall k :: 0 <= k < |b| ==> b'[k] == b[k];
        assert b'[|b|] == DirItem(parts[0], sub);
      } else {
        var sub := Place(b[i].kids, parts[1..], last, id, e);
        assert b[i].DirItem?;
        PlaceLeafEntries(b[i].kids, parts[1..], last, id, e, entries);
        var b' := b[i := DirItem(parts[0], sub)];
        assert forall k :: 0 <= k < |b| && k != i ==> b'[k] == b[k];
      }
    }
  }

  /** Every leaf of the trie of the first `n` entries holds the listed entry
      at its position. */
  lemma {:induction false} BuildLeafEntries(entries: seq<Entry>, n: nat)
    requires n <= |entries|
    ensures LeafEntries(BuildBelow(entries, n), entries)
    decreases n
  {
    if n > 0 {
      BuildLeafEntries(entries, n - 1);
      BuildLeafEntriesStep(entries, n);
    }
  }

  /** Threading entry `n - 1` keeps every leaf holding its entry. */
  lemma {:induction false} BuildLeafEntriesStep(entries: seq<Entry>, n: nat)
    requires 0 < n <= |entries|
    requires LeafEntries(BuildBelow(entries, n - 1), entries)
    ensures LeafEntries(BuildBelow(entries, n), entries)
  {
    var parts := Split(entries[n - 1].name, Slash);
    PlaceLeafEntries(BuildBelow(entries, n - 1), parts, Last(parts), n - 1, entries[n - 1], entries);
  }

  // ---------------------------------------------------------------------
  // Where an entry is placed

  /** The entry `id` is keyed in the branch reached from `branch` through
      the directory components `path`. */
  predicate LeafAt(branch: seq<Item>, path: seq<string>, id: nat)
    decreases |path|
  {
    if path == [] then Leaf(id) in Keys(branch)
    else exists k :: 0 <= k < |branch| && branch[k].DirItem? && branch[k].name == path[0]
                      && LeafAt(branch[k].kids, path[1..], id)
  }

  /** The components of `parts` that differ from `last`: the directories
      the loop actually descends through. */
  function Descents(parts: seq<string>, last: string): (r: seq<string>)
    ensures forall i :: 0 <= i < |r| ==> r[i] != last
    ensures |r| <= |parts|
  {
    if parts == [] then []
    else (if parts[0] == last then [] else [parts[0]]) + Descents(parts[1..], last)
  }

  /** Placing another entry never loses a leaf. */
  lemma {:induction false} PlaceKeepsLeafAt(b: seq<Item>, parts: seq<string>, last: string, id: nat, e: Entry,
                                            path: seq<string>, j: nat)
    requires LeafAt(b, path, j)
    ensures LeafAt(Place(b, parts, last, id, e), path, j)
    decreases |parts|
  {
    if parts == [] {
    } else if parts[0] == last {
      var b' := PutLeaf(b, id, e);
      assert LeafAt(b', path, j) by {
        PutLeafKeys(b, id, e);
        if path != [] {
          var k :| 0 <= k < |b| && b[k].DirItem? && b[k].name == path[0] && LeafAt(b[k].kids, path[1..], j);
          assert b'[k] == b[k];
        }
      }
      PlaceKeepsLeafAt(b', parts[1..], last, id, e, path, j);
    } else {
      var i := FindDir(b, parts[0]);
      if i < 0 {
        var b' := b + [DirItem(parts[0], Place([], parts[1..], last, id, e))];
        if path == [] {
          var k :| 0 <= k < |b| && KeyOf(b[k]) == Leaf(j);
          assert b'[k] == b[k];
        } else {
          var k :| 0 <= k < |b| && b[k].DirItem? && b[k].name == path[0] && LeafAt(b[k].kids, path[1..], j);
          assert b'[k] == b[k];
        }
      } else {
        var sub := Place(b[i].kids, parts[1..], last, id, e);
        var b' := b[i := DirItem(parts[0], sub)];
        if path == [] {
          var k :| 0 <= k < |b| && KeyOf(b[k]) == Leaf(j);
          assert b'[k] == b[k];
        } else {
          var k :| 0 <= k < |b| && b[k].DirItem? && b[k].name == path[0] && LeafAt(b[k].kids, path[1..], j);
          if k == i {
            PlaceKeepsLeafAt(b[i].kids, parts[1..], last, id, e, path[1..], j);
            assert b'[k].kids == sub;
          } else {
            assert b'[k] == b[k];
          }
        }
      }
    }
  }

  /** Line 157 compares each component with the final one by value: every
      component equal to the final one keys the entry in the branch reached
      so far, which is the branch of the components before it that differ
      from the final one. */
  lemma {:induction false} PlaceLeafAt(b: seq<Item>, parts: seq<string>, last: string, id: nat, e: Entry, i: nat)
    requires i < |parts| && parts[i] == last
    ensures LeafAt(Place(b, parts, last, id, e), Descents(parts[..i], last), id)
    decreases |parts|
  {
    if parts[0] == last {
      var b' := PutLeaf(b, id, e);
      if i == 0 {
        assert parts[..0] == [];
        PutLeafKeys(b, id, e);
        PlaceKeepsLeafAt(b', parts[1..], last, id, e, [], id);
      } else {
        PlaceLeafAt(b', parts[1..], last, id, e, i - 1);
        assert parts[..i][1..] == parts[1..][..i - 1];
        assert Descents(parts[..i], last) == Descents(parts[1..][..i - 1], last);
      }
    } else {
      assert i > 0;
      assert parts[..i][1..] == parts[1..][..i - 1];
      var path := Descents(parts[..i], last);
      assert path == [parts[0]] + Descents(parts[1..][..i - 1], last);
      var f := FindDir(b, parts[0]);
      var kids := if f < 0 then [] else b[f].kids;
      var sub := Place(kids, parts[1..], last, id, e);
      PlaceLeafAt(kids, parts[1..], last, id, e, i - 1);
      var b' := Place(b, parts, last, id, e);
      var k := if f < 0 then |b| else f;
      assert b'[k] == DirItem(parts[0], sub);
      assert path[1..] == Descents(parts[1..][..i - 1], last);
      assert 0 <= k < |b'| && b'[k].DirItem? && b'[k].name == path[0] && LeafAt(b'[k].kids, path[1..], id);
    }
  }

  /** The usual case: a name whose final component occurs only at the end
      is keyed in the branch of its directory components. */
  lemma {:induction false} PlaceAtPath(b: seq<Item>, parts: seq<string>, id: nat, e: Entry)
    requires |parts| >= 1
    requires forall i :: 0 <= i < |parts| - 1 ==> parts[i] != Last(parts)
    ensures LeafAt(Place(b, parts, Last(parts), id, e), parts[..|parts| - 1], id)
  {
    var n := |parts| - 1;
    PlaceLeafAt(b, parts, Last(parts), id, e, n);
    DescentsKeepsOthers(parts[..n], Last(parts));
  }

  lemma {:induction false} DescentsKeepsOthers(parts: seq<string>, last: string)
    requires forall i :: 0 <= i < |parts| ==> parts[i] != last
    ensures Descents(parts, last) == parts
    decreases |parts|
  {
    if parts != [] {
      DescentsKeepsOthers(parts[1..], last);
    }
  }

  /** The empty branch keys nothing. */
  lemma {:induction false} NoLeafInEmpty(path: seq<string>, j: nat)
    ensures !LeafAt([], path, j)
  {
  }

  /** `branch[entry] = True` keys the entry at the branch itself and adds
      nothing below it. */
  lemma {:induction false} PutLeafOnlyHere(b: seq<Item>, id: nat, e: Entry, path: seq<string>, j: nat)
    requires LeafAt(PutLeaf(b, id, e), path, j) && !LeafAt(b, path, j)
    ensures path == [] && j == id
  {
    var b' := PutLeaf(b, id, e);
    if path == [] {
      var k :| 0 <= k < |b'| && Keys(b')[k] == Leaf(j);
      if k < |b| {
        assert false;
      }
    } else {
      assert false;
    }
  }

  /** The sub-branch a directory component descends into: the existing
      one, or a new empty one. */
  function SubBranch(b: seq<Item>, name: string): seq<Item>
  {
    var f := FindDir(b, name);
    if f < 0 then [] else b[f].kids
  }

  /** A component other than the final one changes only its own
      sub-branch: a leaf new to the branch is a leaf new to that sub-branch. */
  lemma {:induction false} DescendOnlyHere(b: seq<Item>, parts: seq<string>, last: string, id: nat, e: Entry,
                                           path: seq<string>, j: nat)
    requires parts != [] && parts[0] != last
    requires LeafAt(Place(b, parts, last, id, e), path, j)
    requires !LeafAt(b, path, j)
    ensures path != [] && path[0] == parts[0]
    ensures LeafAt(Place(SubBranch(b, parts[0]), parts[1..], last, id, e), path[1..], j)
    ensures !LeafAt(SubBranch(b, parts[0]), path[1..], j)
  {
    var f := FindDir(b, parts[0]);
    var kids := SubBranch(b, parts[0]);
    var sub := Place(kids, parts[1..], last, id, e);
    var b' := Place(b, parts, last, id, e);
    var m := if f < 0 then |b| else f;
    assert b'[m] == DirItem(parts[0], sub);
    if path == [] {
      assert false;
    }
    var k :| 0 <= k < |b'| && b'[k].DirItem? && b'[k].name == path[0] && LeafAt(b'[k].kids, path[1..], j);
    if k != m {
      assert false;
    }
    if f < 0 {
      NoLeafInEmpty(path[1..], j);
    }
  }

  /** The converse of `PlaceLeafAt`: threading the entry `id` keys nothing
      but `id`, and only in the branches that line 157 chooses, those reached
      through the differing components before an occurrence of the final
      one. */
  lemma {:induction false} PlaceLeafOnlyAt(b: seq<Item>, parts: seq<string>, last: string, id: nat, e: Entry,
                                           path: seq<string>, j: nat)
    requires LeafAt(Place(b, parts, last, id, e), path, j)
    requires !LeafAt(b, path, j)
    ensures j == id
    ensures exists i :: 0 <= i < |parts| && parts[i] == last && path == Descents(parts[..i], last)
    decreases |parts|, 1
  {
    if parts == [] {
      assert false;
    } else if parts[0] == last {
      FinalOnlyAt(b, parts, last, id, e, path, j);
    } else {
      DescentOnlyAt(b, parts, last, id, e, path, j);
    }
  }

  /** `PlaceLeafOnlyAt` when the first component is the final one. */
  lemma {:induction false} FinalOnlyAt(b: seq<Item>, parts: seq<string>, last: string, id: nat, e: Entry,
                                       path: seq<string>, j: nat)
    requires parts != [] && parts[0] == last
    requires LeafAt(Place(b, parts, last, id, e), path, j)
    requires !LeafAt(b, path, j)
    ensures j == id
    ensures exists i :: 0 <= i < |parts| && parts[i] == last && path == Descents(parts[..i], last)
    decreases |parts|, 0
  {
    var b' := PutLeaf(b, id, e);
    if LeafAt(b', path, j) {
      PutLeafOnlyHere(b, id, e, path, j);
      assert parts[..0] == [];
    } else {
      PlaceLeafOnlyAt(b', parts[1..], last, id, e, path, j);
      var i :| 0 <= i < |parts| - 1 && parts[1..][i] == last && path == Descents(parts[1..][..i], last);
      DescentsStep(parts, last, i);
    }
  }

  /** `PlaceLeafOnlyAt` when the first component descends. */
  lemma {:induction false} DescentOnlyAt(b: seq<Item>, parts: seq<string>, last: string, id: nat, e: Entry,
                                         path: seq<string>, j: nat)
    requires parts != [] && parts[0] != last
    requires LeafAt(Place(b, parts, last, id, e), path, j)
    requires !LeafAt(b, path, j)
    ensures j == id
    ensures exists i :: 0 <= i < |parts| && parts[i] == last && path == Descents(parts[..i], last)
    decreases |parts|, 0
  {
    var kids := SubBranch(b, parts[0]);
    DescendOnlyHere(b, parts, last, id, e, path, j);
    PlaceLeafOnlyAt(kids, parts[1..], last, id, e, path[1..], j);
    var i :| 0 <= i < |parts| - 1 && parts[1..][i] == last && path[1..] == Descents(parts[1..][..i], last);
    DescentsCons(parts, last, i, path);
  }

  /** Descending through a differing first component prepends it. */
  lemma {:induction false} DescentsCons(parts: seq<string>, last: string, i: nat, path: seq<string>)
    requires i + 1 < |parts| && parts[0] != last
    requires path != [] && path[0] == parts[0] && path[1..] == Descents(parts[1..][..i], last)
    ensures parts[i + 1] == parts[1..][i]
    ensures path == Descents(parts[..i + 1], last)
  {
    DescentsStep(parts, last, i);
    assert path == [parts[0]] + path[1..];
  }

  /** `Descents` of a prefix, one component at a time. */
  lemma {:induction false} DescentsStep(parts: seq<string>, last: string, i: nat)
    requires i + 1 < |parts|
    ensures parts[i + 1] == parts[1..][i]
    ensures Descents(parts[..i + 1], last) ==
            (if parts[0] == last then [] else [parts[0]]) + Descents(parts[1..][..i], last)
  {
    assert parts[..i + 1][1..] == parts[1..][..i];
  }


  /** A directory is reached from `branch` through the components `path`. */
  predicate DirAt(branch: seq<Item>, path: seq<string>)
    decreases |path|
  {
    && path != []
    && exists k :: 0 <= k < |branch| && branch[k].DirItem? && branch[k].name == path[0]
                   && (|path| == 1 || DirAt(branch[k].kids, path[1..]))
  }

  lemma {:induction false} PutLeafKeepsDirs(b: seq<Item>, id: nat, e: Entry, path: seq<string>)
    requires DirAt(PutLeaf(b, id, e), path)
    ensures DirAt(b, path)
  {
    var b' := PutLeaf(b, id, e);
    var k :| 0 <= k < |b'| && b'[k].DirItem? && b'[k].name == path[0]
             && (|path| == 1 || DirAt(b'[k].kids, path[1..]));
    assert k < |b| && b'[k] == b[k];
  }

  /** Threading an entry creates directories only along the components it
      descends through: every new directory path is a prefix of them. */
  lemma {:induction false} PlaceDirsOnPath(b: seq<Item>, parts: seq<string>, last: string, id: nat, e: Entry,
                                           path: seq<string>)
    requires DirAt(Place(b, parts, last, id, e), path)
    requires !DirAt(b, path)
    ensures path <= Descents(parts, last)
    decreases |parts|
  {
    if parts == [] {
      assert false;
    } else if parts[0] == last {
      var b' := PutLeaf(b, id, e);
      if DirAt(b', path) {
        PutLeafKeepsDirs(b, id, e, path);
        assert false;
      }
      PlaceDirsOnPath(b', parts[1..], last, id, e, path);
      assert Descents(parts, last) == Descents(parts[1..], last);
    } else {
      var f := FindDir(b, parts[0]);
      var kids := if f < 0 then [] else b[f].kids;
      var sub := Place(kids, parts[1..], last, id, e);
      var b' := Place(b, parts, last, id, e);
      var m := if f < 0 then |b| else f;
      assert b'[m] == DirItem(parts[0], sub);
      var k :| 0 <= k < |b'| && b'[k].DirItem? && b'[k].name == path[0]
               && (|path| == 1 || DirAt(b'[k].kids, path[1..]));
      if k != m {
        assert false;
      }
      var d := Descents(parts, last);
      assert d == [parts[0]] + Descents(parts[1..], last);
      if |path| > 1 {
        if f >= 0 && DirAt(kids, path[1..]) {
          assert false;
        }
        PlaceDirsOnPath(kids, parts[1..], last, id, e, path[1..]);
        assert path == [parts[0]] + path[1..];
      }
    }
  }

  /** `path` leads to a branch where line 157 keys the entry `e`: the
      differing components before an occurrence of its final component. */
  predicate KeyedOnDescent(e: Entry, path: seq<string>)
  {
    var parts := Split(e.name, Slash);
    exists i :: 0 <= i < |parts| && parts[i] == Last(parts) && path == Descents(parts[..i], Last(parts))
  }

  /** In the built trie each entry is keyed only where line 157 puts it: in
      the branch reached through the differing components before an
      occurrence of its final component. */
  lemma {:induction false} BuildLeafOnlyAt(entries: seq<Entry>, n: nat, path: seq<string>, j: nat)
    requires n <= |entries|
    requires LeafAt(BuildBelow(entries, n), path, j)
    ensures j < n
    ensures KeyedOnDescent(entries[j], path)
    decreases n
  {
    if n == 0 {
      NoLeafInEmpty(path, j);
      assert false;
    } else {
      var below := BuildBelow(entries, n - 1);
      if LeafAt(below, path, j) {
        BuildLeafOnlyAt(entries, n - 1, path, j);
      } else {
        BuildLeafOnlyAtStep(entries, n, path, j);
      }
    }
  }

  /** A leaf new with entry `n - 1` is that entry, where line 157 puts it. */
  lemma {:induction false} BuildLeafOnlyAtStep(entries: seq<Entry>, n: nat, path: seq<string>, j: nat)
    requires 0 < n <= |entries|
    requires LeafAt(BuildBelow(entries, n), path, j)
    requires !LeafAt(BuildBelow(entries, n - 1), path, j)
    ensures j == n - 1
    ensures KeyedOnDescent(entries[j], path)
  {
    var parts := Split(entries[n - 1].name, Slash);
    PlaceLeafOnlyAt(BuildBelow(entries, n - 1), parts, Last(parts), n - 1, entries[n - 1], path, j);
    var i :| 0 <= i < |parts| && parts[i] == Last(parts) && path == Descents(parts[..i], Last(parts));
    assert Split(entries[n - 1].name, Slash) == parts;
  }

  /** `path` is a prefix of the differing components of the entry `e`,
      the directories line 161 descends through for it. */
  predicate OnDescent(e: Entry, path: seq<string>)
  {
    var parts := Split(e.name, Slash);
    path <= Descents(parts, Last(parts))
  }

  /** The converse of `BuildLeafOnlyAt`: every listed entry is keyed in the
      built trie wherever line 157 puts it. */
  lemma {:induction false} BuildLeafAt(entries: seq<Entry>, n: nat, path: seq<string>, j: nat)
    requires n <= |entries|
    requires j < n && KeyedOnDescent(entries[j], path)
    ensures LeafAt(BuildBelow(entries, n), path, j)
    decreases n
  {
    if j == n - 1 {
      BuildLeafAtStep(entries, n, path);
    } else {
      BuildLeafAt(entries, n - 1, path, j);
      BuildKeepsLeafAt(entries, n, path, j);
    }
  }

  /** Threading entry `n - 1` keeps every earlier leaf. */
  lemma {:induction false} BuildKeepsLeafAt(entries: seq<Entry>, n: nat, path: seq<string>, j: nat)
    requires 0 < n <= |entries|
    requires LeafAt(BuildBelow(entries, n - 1), path, j)
    ensures LeafAt(BuildBelow(entries, n), path, j)
  {
    var parts := Split(entries[n - 1].name, Slash);
    PlaceKeepsLeafAt(BuildBelow(entries, n - 1), parts, Last(parts), n - 1, entries[n - 1], path, j);
  }

  /** Entry `n - 1` is keyed wherever line 157 puts it. */
  lemma {:induction false} BuildLeafAtStep(entries: seq<Entry>, n: nat, path: seq<string>)
    requires 0 < n <= |entries|
    requires KeyedOnDescent(entries[n - 1], path)
    ensures LeafAt(BuildBelow(entries, n), path, n - 1)
  {
    var parts := Split(entries[n - 1].name, Slash);
    var i :| 0 <= i < |parts| && parts[i] == Last(parts) && path == Descents(parts[..i], Last(parts));
    PlaceLeafAt(BuildBelow(entries, n - 1), parts, Last(parts), n - 1, entries[n - 1], i);
  }

  /** Every directory of the built trie lies on the components some entry
      descends through. */
  lemma {:induction false} BuildDirsOnPath(entries: seq<Entry>, n: nat, path: seq<string>)
    requires n <= |entries|
    requires DirAt(BuildBelow(entries, n), path)
    ensures exists j :: 0 <= j < n && OnDescent(entries[j], path)
    decreases n
  {
    if n == 0 {
      assert false;
    } else {
      var below := BuildBelow(entries, n - 1);
      if DirAt(below, path) {
        BuildDirsOnPath(entries, n - 1, path);
      } else {
        BuildDirsOnPathStep(entries, n, path);
      }
    }
  }

  /** A directory new with entry `n - 1` lies on that entry's descent. */
  lemma {:induction false} BuildDirsOnPathStep(entries: seq<Entry>, n: nat, path: seq<string>)
    requires 0 < n <= |entries|
    requires DirAt(BuildBelow(entries, n), path)
    requires !DirAt(BuildBelow(entries, n - 1), path)
    ensures OnDescent(entries[n - 1], path)
  {
    var parts := Split(entries[n - 1].name, Slash);
    PlaceDirsOnPath(BuildBelow(entries, n - 1), parts, Last(parts), n - 1, entries[n - 1], path);
  }

  // ---------------------------------------------------------------------
  // Examples of the comparison by value

  /** "a/a": both components equal the final one, so the entry is keyed at
      the root only and no directory "a" is made. */
  lemma {:induction false} RepeatedFinalComponent(e: Entry)
    requires e.name == "a/a"
    ensures Build([e]) == [LeafItem(0, e)]
  {
    SplitJoin(["a", "a"], Slash);
    assert Join(["a", "a"], Slash) == "a/a";
    var parts := Split("a/a", Slash);
    assert parts == ["a", "a"];
    assert Last(parts) == "a";
    var es := [e];
    assert BuildBelow(es, 0) == [];
    assert Build(es) == Place([], parts, "a", 0, e);
    var one := [LeafItem(0, e)];
    assert Place([], parts, "a", 0, e) == Place(one, ["a"], "a", 0, e);
    assert Leaf(0) in Keys(one);
    assert Place(one, ["a"], "a", 0, e) == Place(one, [], "a", 0, e);
  }

  /** "x/y/x": keyed at the root (first "x") and under "y" (last "x"). */
  lemma {:induction false} FinalComponentReappears(e: Entry)
    requires e.name == "x/y/x"
    ensures Build([e]) == [LeafItem(0, e), DirItem("y", [LeafItem(0, e)])]
  {
    SplitJoin(["x", "y", "x"], Slash);
    assert Join(["x", "y", "x"], Slash) == "x/y/x";
    var parts := Split("x/y/x", Slash);
    assert parts == ["x", "y", "x"];
    assert Last(parts) == "x";
    assert Build([e]) == Place([], parts, "x", 0, e) by {
      assert BuildBelow([e], 0) == [];
    }
    FinalComponentPlaces(e);
  }

  /** The placements behind `FinalComponentReappears`. */
  lemma {:induction false} FinalComponentPlaces(e: Entry)
    ensures Place([], ["x", "y", "x"], "x", 0, e) == [LeafItem(0, e), DirItem("y", [LeafItem(0, e)])]
  {
    var one := [LeafItem(0, e)];
    assert Place([], ["x", "y", "x"], "x", 0, e) == Place(one, ["y", "x"], "x", 0, e) by {
      assert ["x", "y", "x"][1..] == ["y", "x"];
      assert Leaf(0) !in Keys([]);
    }
    assert Place(one, ["y", "x"], "x", 0, e) == one + [DirItem("y", Place([], ["x"], "x", 0, e))] by {
      assert FindDir(one, "y") == -1;
      assert ["y", "x"][1..] == ["x"];
    }
    PlaceFile([], "x", 0, e);
    assert [] + one == one;
  }

  /** "d/p" then "d/q": the second entry reuses the branch of "d". */
  lemma {:induction false} SharedDirectory(p: Entry, q: Entry)
    requires p.name == "d/p" && q.name == "d/q"
    ensures Build([p, q]) == [DirItem("d", [LeafItem(0, p), LeafItem(1, q)])]
  {
    assert p.name == "d" + [Slash] + "p";
    assert q.name == "d" + [Slash] + "q";
    SplitPair("d", "p");
    SplitPair("d", "q");
    var entries := [p, q];
    var first := Place([], ["d", "p"], "p", 0, p);
    assert BuildBelow(entries, 1) == first by {
      assert BuildBelow(entries, 0) == [];
    }
    SharedDirectoryPlaces(p, q);
  }

  /** A file name without directories is keyed in the branch itself. */
  lemma {:induction false} PlaceFile(branch: seq<Item>, name: string, id: nat, e: Entry)
    requires Leaf(id) !in Keys(branch)
    ensures Place(branch, [name], name, id, e) == branch + [LeafItem(id, e)]
  {
    assert [name][1..] == [];
  }

  /** `dir/name`, with `dir` different from `name`: the entry goes into the
      branch of `dir`, which is created at the end when it is missing. */
  lemma {:induction false} PlaceInDir(branch: seq<Item>, dir: string, name: string, id: nat, e: Entry)
    requires dir != name
    ensures var i := FindDir(branch, dir);
            Place(branch, [dir, name], name, id, e) ==
              if i < 0 then branch + [DirItem(dir, Place([], [name], name, id, e))]
              else branch[i := DirItem(dir, Place(branch[i].kids, [name], name, id, e))]
  {
    assert [dir, name][1..] == [name];
  }

  /** The two placements behind `SharedDirectory`. */
  lemma {:induction false} SharedDirectoryPlaces(p: Entry, q: Entry)
    ensures var first := Place([], ["d", "p"], "p", 0, p);
            && first == [DirItem("d", [LeafItem(0, p)])]
            && Place(first, ["d", "q"], "q", 1, q) == [DirItem("d", [LeafItem(0, p), LeafItem(1, q)])]
  {
    var leafP := [LeafItem(0, p)];
    var first := [DirItem("d", leafP)];
    assert Place([], ["d", "p"], "p", 0, p) == first by {
      assert FindDir([], "d") == -1;
      PlaceInDir([], "d", "p", 0, p);
      assert Leaf(0) !in Keys([]);
      PlaceFile([], "p", 0, p);
      assert [] + leafP == leafP;
    }
    assert FindDir(first, "d") == 0;
    PlaceInDir(first, "d", "q", 1, q);
    assert Leaf(1) !in Keys(leafP);
    PlaceFile(leafP, "q", 1, q);
    var both := [LeafItem(0, p), LeafItem(1, q)];
    assert leafP + [LeafItem(1, q)] == both;
    assert first[0 := DirItem("d", both)] == [DirItem("d", both)];
  }
}
